=== FILE: README.md ===
# Test change algebra and shared map routing, in Dafny

This project models two pieces of a collaborative-document platform and
proves properties of them.

**The test change family.** This is the reference change family the tree's
rebaser is exercised against.
- A change records three things: the context it was minted against, a list
  of integer intentions, and the context it produces.
- A context is the list of intentions applied so far. Applying an intention
  that is the negation of the context's last entry cancels that entry;
  any other intention is appended.
- The family offers `mint`, `compose` (with an optional context check),
  `invert`, `rebase`, a projection to a delta, a codec, and `emptyChange`.
- The model also covers the pieces the test file hands to the exhaustive
  rebaser suite: the child-state generator, the operation record, and
  `rebaseComposed`.
- Every concrete assertion in the test file is proved as a lemma. The
  suite's laws are proved as lemmas quantified over all changes that meet
  each law's stated preconditions; the preconditions, and the cases they
  exclude, are listed under "Left out". The laws cover:
  - rebasing over a composition equals rebasing over each base in turn
    (for valid base changes whose contexts chain);
  - a change composed with its inverse cancels (for valid changes);
  - normalisation (exact for a non-empty further change that starts where
    the first one did, up to the delta otherwise);
  - associativity and identity of `compose` (for changes minted against
    reduced contexts);
  - the codec round trip (for every change).

**Shared map routing.** The shared map keeps a table of message handlers keyed by operation type.
- Every routing decision asks whether that table has a handler for the
  message's type. The decisions are `transform`, `prepareCore`,
  `processCore`, `isMapMessage`, the reconnect split and the load filter.
- The model keeps the table as a Dafny `map`.
- It does not model the map's view. Each handler's effect is recorded as
  the call it would make on the view, or on a value type's operation.

Modules:
- `Wrappers`: `Option` and `Result`.
- `IntentionAlgebra`: contexts, intention steps, normal forms, inverses.
- `TestChanges`: the change datatype, `mint`, `compose`, `invert`, `rebase`
  and the composition laws.
- `TestChangeDelta`: the delta projection, with a parser for the projected
  value.
- `TestChangeCodec`: the codec over a small JSON datatype.
- `TestChangeExamples`: the concrete test cases.
- `RebaserHarness`: the generator, the field-state tree, the suite's
  operation record and `rebaseComposed`.
- `SharedMapRouting`: the shared map's routing.

**Where the model comes from.** The implementation of the test change
family (`testChange.ts`) is not part of this model. The behaviour modelled
here is reconstructed from the assertions in
`packages/dds/tree/src/test/testChange.spec.ts`:
- Minting appends each intention to the context by the cancelling step.
- `compose` keeps the first non-empty change's input context. It normalises
  all intentions, and it builds the output context from that input context.
  With verification on, it rejects a non-empty change whose input context is
  not the output context accumulated so far.
- `invert` swaps the contexts and negates and reverses the intentions.
- `rebase` of a non-empty change over a non-empty base keeps the
  intentions and starts them from the base's output context; this is what
  the test at lines 64-71 fixes.

Three further rebase cases are pinned down by no test assertion; the model
chooses them as follows:
- Rebasing `emptyChange` gives `emptyChange`. The suite reads a missing
  result as `emptyChange` and `rebaseComposed` insists on a result, so a
  change always rebases to a value.
- Rebasing over `emptyChange` returns the change unchanged, as rebasing over
  an edit that does nothing should.
- Rebasing a non-empty change over a non-empty base minted against another
  context is a contract violation: the caller must only rebase over a base
  the change branched from. It is modelled as the `IncompatibleBase`
  failure rather than a corrupted change.

Where a law is commonly stated more broadly than the model proves it, the
model states the narrower law and the case it leaves out under "Left out".

## Model

| member | source | states |
|---|---|---|
| TestChangeExamples.CanBeComposed | packages/dds/tree/src/test/testChange.spec.ts:26-33 | composing mint([0,1],2) with mint([0,1,2],3) gives exactly mint([0,1],[2,3]) |
| TestChangeExamples.CanBeComposedWithoutVerification | packages/dds/tree/src/test/testChange.spec.ts:35-45 | with verification off, mint([0],1) and mint([2],3) compose to mint([0],[1,3]); with it on the same pair is rejected |
| TestChangeExamples.CompositionOfInversesNormalises | packages/dds/tree/src/test/testChange.spec.ts:47-54 | mint([0],[1,2]) composed with mint([0,1,2],[-2,-1,3]) normalises to mint([0],[3]) |
| TestChangeExamples.CanBeInverted | packages/dds/tree/src/test/testChange.spec.ts:56-62 | the inverse of mint([0,1],2) is mint([0,1,2],-2) |
| TestChangeExamples.CanBeRebased | packages/dds/tree/src/test/testChange.spec.ts:64-71 | rebasing mint([0],2) over mint([0],1) gives mint([0,1],2) |
| TestChangeExamples.CanBeRepresentedAsDelta | packages/dds/tree/src/test/testChange.spec.ts:73-96 | a tagged mint([0,1],[2,3]) projects to the single `foo` entry holding a `test` node valued "2\|3", built as minor 424243 and detached as minor 424242 under the tag; an anonymous change without intentions projects to the empty map |
| TestChangeExamples.CanBeEncodedInJson | packages/dds/tree/src/test/testChange.spec.ts:99-106 | `emptyChange` and mint([0,1],[2,3]) decode back to themselves under the context "session1" |
| TestChanges.MintExtendsContext | packages/dds/tree/src/test/testChange.spec.ts:133-137 | minting one intention against any context takes it exactly one cancelling step: it appends the intention, unless it is the negation of the last entry, which it then cancels |
| TestChanges.Mint | packages/dds/tree/src/test/testChange.spec.ts:27-31 | a minted change keeps the given input context and intentions, and is valid when minted against a reduced context |
| TestChanges.ComposeValue | packages/dds/tree/src/test/testChange.spec.ts:26-54 | the composition is `emptyChange` exactly when every change is empty; otherwise it starts at the first non-empty input context, holds the normal form of all intentions concatenated, and ends where those intentions lead from its input context |
| TestChanges.Compose | packages/dds/tree/src/test/testChange.spec.ts:35-45 | a composition fails exactly when verification is on and the contexts do not chain; on success it carries the composed value |
| TestChanges.VerificationDoesNotChangeValue | packages/dds/tree/src/test/testChange.spec.ts:35-45 | turning verification off never fails and gives the same value a verified success gives |
| TestChanges.ContextsChainIffAdjacent | packages/dds/tree/src/test/testChange.spec.ts:35-45 | for valid changes, the verification check passes exactly when each non-empty change starts where the previous non-empty change ends |
| TestChanges.ComposePair | packages/dds/tree/src/test/testChange.spec.ts:26-45 | composing two non-empty changes fails only under verification when the second does not start where the first ends; otherwise it normalises both changes' intentions onto the first input context |
| TestChanges.Invert | packages/dds/tree/src/test/testChange.spec.ts:56-62 | the inverse is empty exactly when the change is; its input context is the change's output context and vice versa; its intentions are the negations in reverse order |
| TestChanges.InvertKeepsValid | packages/dds/tree/src/test/testChange.spec.ts:56-62 | the inverse of a valid change is valid: its intentions lead from the original output context back to the original input context |
| TestChanges.InvertInvolutive | packages/dds/tree/src/test/testChange.spec.ts:56-62 | inverting twice gives the change back |
| TestChanges.Rebase | packages/dds/tree/src/test/testChange.spec.ts:64-71 | rebasing fails exactly when both changes are non-empty and were minted against different contexts; otherwise `emptyChange` stays empty, rebasing over `emptyChange` changes nothing, and a non-empty change over a non-empty base becomes its intentions minted against the base's output context |
| TestChanges.RebaseKeepsValid | packages/dds/tree/src/test/testChange.spec.ts:64-71 | rebasing a valid change over a valid change yields a valid change |
| TestChanges.ComposeFlatten | packages/dds/tree/src/test/testChange.spec.ts:146-165 | composing a sub-list first and splicing the result back in gives the value of composing the flat list |
| TestChanges.ComposeAssociativeLeft | packages/dds/tree/src/test/testChange.spec.ts:146-165 | compose([compose([A,B]),C]) equals compose([A,B,C]) |
| TestChanges.ComposeAssociativeRight | packages/dds/tree/src/test/testChange.spec.ts:146-165 | compose([A,compose([B,C])]) equals compose([A,B,C]) |
| TestChanges.ComposeIdentity | packages/dds/tree/src/test/testChange.spec.ts:146-165 | `emptyChange` on either side of a change does not alter its composition, and composing a single valid change with normalised intentions gives it back |
| TestChanges.ComposeWithInverse | packages/dds/tree/src/test/testChange.spec.ts:146-165 | a valid change composed with its inverse chains, cancels every intention and returns to its input context |
| TestChanges.NormalisationLaw | packages/dds/tree/src/test/testChange.spec.ts:47-54 | compose([A, invert(A), X]) equals compose([X]) for every non-empty X that starts where A starts |
| TestChanges.ComposeEndsAtLastOutput | packages/dds/tree/src/test/testChange.spec.ts:110-122 | a chaining list of valid changes composes to the output context of its last non-empty change |
| IntentionAlgebra.ComposeIntentionsLoop | packages/dds/tree/src/test/testChange.spec.ts:47-54 | the loop that folds intentions onto a context, caching the context's last entry, computes the normal-form fold; it keeps a reduced context reduced, and the inverse intentions lead back |
| IntentionAlgebra.ComposeIntentionsThenInverse | packages/dds/tree/src/test/testChange.spec.ts:47-54 | applying intentions and then their inverse returns to any reduced context |
| IntentionAlgebra.ComposeIntentionsNested | packages/dds/tree/src/test/testChange.spec.ts:47-54 | applying a normalised list of intentions to a reduced context has the same effect as applying the list itself |
| IntentionAlgebra.NormalFormIsIdempotent | packages/dds/tree/src/test/testChange.spec.ts:47-54 | the normal form of a list of intentions is reduced and is its own normal form |
| TestChangeDelta.ToDelta | packages/dds/tree/src/test/testChange.spec.ts:73-96 | the delta is empty exactly when the change has no intentions; otherwise it has the single key `foo`, a `test` node, and build and detach ids 424243 and 424242 under the change's revision |
| TestChangeDelta.ToDeltaValueRoundTrip | packages/dds/tree/src/test/testChange.spec.ts:73-96 | the projected node value parses back to exactly the change's intentions, in order |
| TestChangeDelta.ToDeltaDistinguishesIntentions | packages/dds/tree/src/test/testChange.spec.ts:73-96 | under one revision, two changes project to the same delta exactly when their intentions agree |
| TestChangeDelta.NormalisationUpToDelta | packages/dds/tree/src/test/testChange.spec.ts:146-165 | compose([A, invert(A), X]) projects to the same delta as compose([X]) for every X that starts where A starts, `emptyChange` included |
| TestChangeDelta.NormalisationKeepsContextBeforeEmpty | packages/dds/tree/src/test/testChange.spec.ts:146-165 | with X = `emptyChange`, compose([A, invert(A), X]) is a change without intentions from A's input context back to it, not `emptyChange` itself |
| TestChangeDelta.ComposeWithInverseProjectsToNothing | packages/dds/tree/src/test/testChange.spec.ts:146-165 | a valid change composed with its inverse projects to the empty delta |
| TestChangeCodec.Encode | packages/dds/tree/src/test/testChange.spec.ts:99-106 | an encoded change is an object that carries `inputContext` exactly when the change is non-empty, always carries the intentions, and carries both contexts of a non-empty change |
| TestChangeCodec.Decode | packages/dds/tree/src/test/testChange.spec.ts:99-106 | decoding rejects non-objects and objects without intentions; a success is non-empty exactly when `inputContext` is present and reads every field back as stored |
| TestChangeCodec.CodecRoundTrip | packages/dds/tree/src/test/testChange.spec.ts:99-106 | decoding an encoded change gives it back, `emptyChange` included, under any encoding context |
| RebaserHarness.GenerateChildStates | packages/dds/tree/src/test/testChange.spec.ts:127-144 | the generator yields one child: it records the intention, tags the edit with the intention's tag, describes it with text that parses back to the intention, mints it against the parent's content, and extends that content by the intention unless it cancels the last entry |
| RebaserHarness.RootOf | packages/dds/tree/src/test/testChange.spec.ts:127-144 | the root of a well-formed state is a well-formed root with reduced content, and the first edit below it was minted against its content |
| RebaserHarness.GeneratedStateWellFormed | packages/dds/tree/src/test/testChange.spec.ts:127-144 | a generated child of a well-formed state is well formed |
| RebaserHarness.InitialStateWellFormed | packages/dds/tree/src/test/testChange.spec.ts:149 | the suite's initial state, with empty content, is a well-formed root with no edits behind it |
| RebaserHarness.PathValid | packages/dds/tree/src/test/testChange.spec.ts:127-144 | every edit on a generated path is a valid change and every content is reduced |
| RebaserHarness.PathReplays | packages/dds/tree/src/test/testChange.spec.ts:127-144 | the edits on a generated path chain, and composing them leads from the root's content to the state's content |
| RebaserHarness.SuiteRebase | packages/dds/tree/src/test/testChange.spec.ts:152-154 | the suite's rebase over a tagged base fails exactly on an incompatible base; a result is empty exactly for an empty change, keeps the intentions, starts at a non-empty base's output context, and is the change itself over an empty base |
| RebaserHarness.SuiteInvert | packages/dds/tree/src/test/testChange.spec.ts:158-160 | the suite's invert drops the revision and runs the change backwards |
| RebaserHarness.RebaseComposed | packages/dds/tree/src/test/testChange.spec.ts:110-122 | `rebaseComposed` fails exactly when the bases do not chain, or when they chain and the change did not branch from where their composition starts; it never yields "no result", and a result keeps the change's intentions and emptiness |
| RebaserHarness.RebaseOverEach | packages/dds/tree/src/test/testChange.spec.ts:152-154 | rebasing over each base in turn changes nothing when no base is non-empty, keeps `emptyChange` empty, and on success required the change to start where the first non-empty base starts and mints its intentions against the last non-empty base's output context |
| RebaserHarness.RebaseOverEachSucceeds | packages/dds/tree/src/test/testChange.spec.ts:152-154 | over valid, chaining bases, rebasing step by step succeeds for `emptyChange` and for every change that starts where the first non-empty base starts |
| RebaserHarness.RebaseOverCompositionIsStepwise | packages/dds/tree/src/test/testChange.spec.ts:110-122 | for valid, chaining bases and any change, `emptyChange` included, rebasing over the composition succeeds exactly when rebasing over the bases one at a time does, with the same result, and otherwise both meet the same contract violation |
| RebaserHarness.RebaseOverPath | packages/dds/tree/src/test/testChange.spec.ts:110-122 | rebasing over the composed edits of a generated path succeeds for `emptyChange` and for every change minted against the root's content, giving, below the root, its intentions minted against the state's content; a non-empty change minted against another context is rejected |
| RebaserHarness.RebaseOverInverseRestores | packages/dds/tree/src/test/testChange.spec.ts:152-160 | rebasing a valid change over any base it is compatible with succeeds, and rebasing the result over the base's inverse gives the change back |
| SharedMapRouting.Create | routerlicious/packages/runtime/map/src/map.ts:64-118 | a fresh map handles exactly `clear`, `delete` and `set`, with their own handlers, and has no value types |
| SharedMapRouting.CreateConsistent | routerlicious/packages/runtime/map/src/map.ts:55-118 | a fresh map's handler table and value types agree |
| SharedMapRouting.RegisterValueType | routerlicious/packages/runtime/map/src/map.ts:243-271 | after registering, the type is known and retrievable under its name, its handler is installed under that name, a core handler of that name included, and no other entry changes |
| SharedMapRouting.RegisterKeepsConsistent | routerlicious/packages/runtime/map/src/map.ts:243-271 | registering keeps every value type filed under its own name with its own handler |
| SharedMapRouting.HasValueType | routerlicious/packages/runtime/map/src/map.ts:273-275 | in a consistent map, a name has a value type exactly when its handler is a value type handler |
| SharedMapRouting.GetValueType | routerlicious/packages/runtime/map/src/map.ts:277-279 | the lookup succeeds exactly when the type is registered, and returns the registered type |
| SharedMapRouting.GetOpHandler | routerlicious/packages/runtime/map/src/map.ts:246-253 | the lookup succeeds exactly when the operation names one of the type's operations, and otherwise fails with "Unknown type message" |
| SharedMapRouting.RegisteredValueTypeRoutes | routerlicious/packages/runtime/map/src/map.ts:255-270 | once a type is registered its messages are map messages; an operation the type lacks fails with "Unknown type message" in both prepare and process, and a known one reaches the type's operation's `prepare` and `process` with the key, the argument and `local` |
| SharedMapRouting.Transform | routerlicious/packages/runtime/map/src/map.ts:213-221 | a message whose type has a handler passes through unchanged |
| SharedMapRouting.DefaultTransformIsIdentity | routerlicious/packages/runtime/map/src/map.ts:457-463 | with the map's own content hook, transform returns every message unchanged |
| SharedMapRouting.TransformConsultsHookOnlyForContent | routerlicious/packages/runtime/map/src/map.ts:213-221 | the hook is irrelevant for the map's own messages and decides the result for all others |
| SharedMapRouting.PrepareCore | routerlicious/packages/runtime/map/src/map.ts:370-380 | preparation goes to the content exactly when the message is not an operation with a handled type; clear and delete resolve to nothing; a local set resolves to null without the view, and a remote set delegates to the view's `prepareSetCore` with the operation's key and value; a value-type message fails as its type's operation lookup does, or reaches that operation's `prepare` with the key, the value's argument and `local` |
| SharedMapRouting.ProcessCore | routerlicious/packages/runtime/map/src/map.ts:382-396 | exactly one of the handler and the content processes a message, the handler exactly for operations of a handled type; local clear, delete and set leave the view alone, and remote ones call the matching core operation |
| SharedMapRouting.PrepareAndProcessAgree | routerlicious/packages/runtime/map/src/map.ts:370-396 | prepare and process route a message the same way, fail together, and reach the same value type operation |
| SharedMapRouting.OnConnectContent | routerlicious/packages/runtime/map/src/map.ts:432-438 | every content message is resubmitted, in order |
| SharedMapRouting.OnConnect | routerlicious/packages/runtime/map/src/map.ts:305-326 | reconnecting resubmits the contents of the pending messages, map messages first and then content messages, as many as were pending |
| SharedMapRouting.IsMapMessage | routerlicious/packages/runtime/map/src/map.ts:465-468 | a pending message is the map's exactly when prepare and process would route it, sequenced as an operation, to a handler |
| SharedMapRouting.Select | routerlicious/packages/runtime/map/src/map.ts:308-317 | each side of the split holds only messages of its side and no more messages than were pending |
| SharedMapRouting.Reordered | routerlicious/packages/runtime/map/src/map.ts:305-326 | the resubmission order is a permutation of the pending messages, as long as the pending list, with every map message before every content message |
| SharedMapRouting.SelectPartitions | routerlicious/packages/runtime/map/src/map.ts:308-317 | the split into map and content messages loses and duplicates nothing |
| SharedMapRouting.SelectAppend | routerlicious/packages/runtime/map/src/map.ts:308-317 | splitting a concatenation splits each part and joins the results, so each group keeps the pending order |
| SharedMapRouting.LoadContentMessages | routerlicious/packages/runtime/map/src/map.ts:340 | no message handed to the content on load has a handled type |
| SharedMapRouting.LoadContentMessagesExact | routerlicious/packages/runtime/map/src/map.ts:340 | the load filter keeps each message with an unhandled type as often as it occurs and drops every message with a handled type |
| SharedMapRouting.LoadContentMessagesAppend | routerlicious/packages/runtime/map/src/map.ts:340 | filtering a concatenation filters each part and joins the results, so the content messages keep their sequenced order |

## Left out

- `testChange.ts`, the implementation of the test change family, is not part of this model. Its behaviour is reconstructed from the test assertions, as described above.
- The exhaustive suite driver (`runExhaustiveComposeRebaseSuite`, `exhaustiveRebaserUtils.ts`) is not part of this model. Its laws are stated as lemmas quantified over every input that meets each law's precondition, instead of enumerating a tree four edits deep and four edits wide.
- `mintRevisionTag`, `tagFromIntention` and `mintIntention` supply fresh identifiers. They appear as parameters: a revision tag value, a function argument and an intention argument.
- `rebaseComposed` ignores its `RevisionMetadataSource` argument, so the model drops it.
- `deepFreeze` is left out: every value in the model is immutable already.
- The delta's tree cursor (`cursorForJsonableTreeNode`) and `deltaForSet` are not part of this model. A delta is modelled as a map from field key to one "set node" entry carrying the node and its build and detach identities.
- The codec's wire format is reconstructed as a JSON datatype with `inputContext`, `intentions` and `outputContext` number arrays; `emptyChange` is an object holding only an empty `intentions` array. Byte-level JSON text is not modelled.
- Intentions are unbounded integers. JavaScript's number range and its exponent notation in `String()` beyond 1e21 are not modelled.
- TestChanges.NormalisationLaw: requires X to be non-empty and to start where A starts. For X = `emptyChange` the composition is a context-carrying change without intentions, not `emptyChange`, so the law holds only up to the delta (TestChangeDelta.NormalisationUpToDelta and TestChangeDelta.NormalisationKeepsContextBeforeEmpty). The law is commonly stated for every A and X; the model proves it only in the form above.
- TestChanges.ComposeIdentity: `compose([X])` gives X back only when X's intentions are already in normal form, because composition normalises intentions. The identity law is commonly stated as `compose([X]) == X` without that condition.
- TestChanges.ComposeFlatten: needs every non-empty change to start from a reduced context. Every context the generator builds is reduced.
- RebaserHarness.RebaseOverCompositionIsStepwise: needs valid base changes whose contexts chain. Otherwise the verifying `compose` inside `rebaseComposed` rejects the bases, while rebasing one base at a time need not.
- RebaserHarness.RebaseOverInverseRestores: needs a valid change that is compatible with the base. Otherwise the first rebase is a contract violation, or the change's output context does not follow from its intentions.
- TestChanges.Rebase: the failure for an incompatible base compares input contexts only. Whether a base is causally reachable from the change is not tracked beyond that.
- SharedMapRouting.OnConnect: `submitLocalMessage` is modelled as appending to the returned list. The base class's submission machinery is not part of this model.
- SharedMapRouting.OnConnect: models only the map's own `onConnectContent`, which resubmits every content message. A derived class may override it; unlike `transformContent`, that override is not a parameter of the model.
- SharedMapRouting.GetOpHandler: an operation without a `value` raises a JavaScript type error rather than "Unknown type message". It is modelled as a separate `MissingValue` error.
- The map's view (`MapView`) is not part of this model, nor are value type operations' own `prepare` and `process`. Handlers record the call they make, and the context preparation produced is passed through as an opaque value.
- The `valueChanged` event emitted after a value type operation is left out; the event machinery is not modelled.
- The following parts of `map.ts` are I/O, asynchronous plumbing or base-class delegation, so they are left out:
  - snapshotting, header parsing in `loadCore`, `ContentObjectStorage` and `copyMap`;
  - `keys`, `get`, `wait`, `has`, `set`, `delete` and `clear` (delegations to the view);
  - `submitMapMessage`, which depends on the base class's `isLocal`;
  - `onDisconnect`, `attachCore`, `initializeLocalCore`, `processMinSequenceNumberChanged`, `registerSerializeFilter`, `on` and debug logging.
- Promises are flattened: an asynchronous handler that throws is modelled as a failed outcome.

=== FILE: intention_algebra.dfy ===
/** The integer intentions of the test change family and the document
    contexts they act on.

    A context is the sequence of intentions applied so far. Applying an
    intention that is the negation of the context's last entry cancels that
    entry; any other intention is appended. Composing a list of intentions
    onto a context folds this step over the list, left to right, so a
    context that starts out free of cancelling neighbours stays free of
    them: it is the reduced word of the free group over the intentions. */
module IntentionAlgebra {
  import opened Wrappers

  /** Applies one intention to a context. */
  function Step(composed: seq<int>, extra: int): seq<int>
  {
    if |composed| > 0 && composed[|composed| - 1] == -extra then composed[..|composed| - 1]
    else composed + [extra]
  }

  /** Applies `extras`, in order, to the context `base`. */
  function ComposeIntentions(base: seq<int>, extras: seq<int>): seq<int>
    decreases |extras|
  {
    if |extras| == 0 then base
    else Step(ComposeIntentions(base, extras[..|extras| - 1]), extras[|extras| - 1])
  }

  /** No entry is followed by its own negation. */
  predicate Reduced(s: seq<int>)
  {
    forall i :: 0 < i < |s| ==> s[i] != -s[i - 1]
  }

  /** The intentions that undo `xs`: each negated, in reverse order. */
  function Inverse(xs: seq<int>): (r: seq<int>)
    ensures |r| == |xs|
    ensures forall i :: 0 <= i < |xs| ==> r[i] == -xs[|xs| - 1 - i]
  {
    if |xs| == 0 then [] else [-xs[|xs| - 1]] + Inverse(xs[..|xs| - 1])
  }

  /** The loop form of ComposeIntentions: walks `extras` once, caching the
      last entry of the context built so far (absent while it is empty). */
  method ComposeIntentionsLoop(base: seq<int>, extras: seq<int>) returns (composed: seq<int>)
    ensures composed == ComposeIntentions(base, extras)
    ensures Reduced(base) ==> Reduced(composed)
    ensures Reduced(base) ==> ComposeIntentions(composed, Inverse(extras)) == base
  {
    composed := base;
    var last: Option<int> := if |base| > 0 then Some(base[|base| - 1]) else None;
    var i := 0;
    while i < |extras|
      invariant 0 <= i <= |extras|
      invariant composed == ComposeIntentions(base, extras[..i])
      invariant last.Some? <==> |composed| > 0
      invariant last.Some? ==> last.value == composed[|composed| - 1]
    {
      var extra := extras[i];
      assert extras[..i + 1][..i] == extras[..i];
      if last == Some(-extra) {
        composed := composed[..|composed| - 1];
        last := if |composed| > 0 then Some(composed[|composed| - 1]) else None;
      } else {
        composed := composed + [extra];
        last := Some(extra);
      }
      i := i + 1;
    }
    assert extras[..i] == extras;
    if Reduced(base) {
      ComposeIntentionsPreservesReduced(base, extras);
      ComposeIntentionsThenInverse(base, extras);
    }
  }

  /** Composing a concatenation is composing its parts one after the other. */
  lemma {:induction false} ComposeIntentionsAppend(base: seq<int>, xs: seq<int>, ys: seq<int>)
    ensures ComposeIntentions(base, xs + ys) == ComposeIntentions(ComposeIntentions(base, xs), ys)
    decreases |ys|
  {
    if |ys| == 0 {
      assert xs + ys == xs;
    } else {
      var ys' := ys[..|ys| - 1];
      assert (xs + ys)[..|xs + ys| - 1] == xs + ys';
      ComposeIntentionsAppend(base, xs, ys');
    }
  }

  /** Composing one more intention is one more step. */
  lemma ComposeIntentionsSnoc(base: seq<int>, xs: seq<int>, x: int)
    ensures ComposeIntentions(base, xs + [x]) == Step(ComposeIntentions(base, xs), x)
  {
    assert (xs + [x])[..|xs|] == xs;
  }

  lemma StepPreservesReduced(s: seq<int>, x: int)
    requires Reduced(s)
    ensures Reduced(Step(s, x))
  {
  }

  /** Composition keeps a reduced context reduced. */
  lemma {:induction false} ComposeIntentionsPreservesReduced(base: seq<int>, extras: seq<int>)
    requires Reduced(base)
    ensures Reduced(ComposeIntentions(base, extras))
    decreases |extras|
  {
    if |extras| > 0 {
      ComposeIntentionsPreservesReduced(base, extras[..|extras| - 1]);
      StepPreservesReduced(ComposeIntentions(base, extras[..|extras| - 1]), extras[|extras| - 1]);
    }
  }

  /** On a reduced context, an intention followed by its negation is a no-op. */
  lemma StepThenNegation(s: seq<int>, x: int)
    requires Reduced(s)
    ensures Step(Step(s, x), -x) == s
  {
    if |s| > 0 && s[|s| - 1] == -x {
      var s' := s[..|s| - 1];
      if |s'| > 0 {
        assert s[|s| - 1] != -s[|s| - 2];
      }
      assert s' + [-x] == s;
    } else {
      assert (s + [x])[..|s|] == s;
    }
  }

  /** Composing the inverse of `xs` after `xs` returns to the reduced context. */
  lemma {:induction false} ComposeIntentionsThenInverse(base: seq<int>, xs: seq<int>)
    requires Reduced(base)
    ensures ComposeIntentions(ComposeIntentions(base, xs), Inverse(xs)) == base
    decreases |xs|
  {
    if |xs| > 0 {
      var xs' := xs[..|xs| - 1];
      var x := xs[|xs| - 1];
      var mid := ComposeIntentions(base, xs');
      ComposeIntentionsPreservesReduced(base, xs');
      assert Inverse(xs) == [-x] + Inverse(xs');
      calc {
        ComposeIntentions(ComposeIntentions(base, xs), Inverse(xs));
        { ComposeIntentionsAppend(Step(mid, x), [-x], Inverse(xs')); }
        ComposeIntentions(ComposeIntentions(Step(mid, x), [-x]), Inverse(xs'));
        { assert [-x][..0] == []; }
        ComposeIntentions(Step(Step(mid, x), -x), Inverse(xs'));
        { StepThenNegation(mid, x); }
        ComposeIntentions(mid, Inverse(xs'));
        { ComposeIntentionsThenInverse(base, xs'); }
        base;
      }
    }
  }

  /** Composing a sequence that already continues `base` without
      cancellation appends it unchanged. */
  lemma {:induction false} ComposeIntentionsOfReduced(base: seq<int>, r: seq<int>)
    requires Reduced(base + r)
    ensures ComposeIntentions(base, r) == base + r
    decreases |r|
  {
    if |r| > 0 {
      var r' := r[..|r| - 1];
      assert base + r' == (base + r)[..|base + r| - 1];
      assert Reduced(base + r');
      ComposeIntentionsOfReduced(base, r');
      var n := |base + r|;
      if |base + r'| > 0 {
        assert (base + r')[n - 2] == (base + r)[n - 2];
        assert (base + r)[n - 1] != -(base + r)[n - 2];
      }
      assert base + r' + [r[|r| - 1]] == base + r;
    }
  }

  /** Composing onto a reduced context commutes with one step of normalisation. */
  lemma ComposeIntentionsStep(s: seq<int>, t: seq<int>, x: int)
    requires Reduced(s)
    ensures ComposeIntentions(s, Step(t, x)) == Step(ComposeIntentions(s, t), x)
  {
    if |t| > 0 && t[|t| - 1] == -x {
      var t' := t[..|t| - 1];
      assert t == t' + [-x];
      assert ComposeIntentions(s, t) == Step(ComposeIntentions(s, t'), -x);
      ComposeIntentionsPreservesReduced(s, t');
      StepThenNegation(ComposeIntentions(s, t'), -x);
    } else {
      assert (t + [x])[..|t|] == t;
    }
  }

  /** Normalising a list of intentions changes nothing about its effect on a
      reduced context: composing `t` followed by `xs` in one go, or composing
      `t` first and then the result of `xs` composed onto `t`, agree. */
  lemma {:induction false} ComposeIntentionsNested(s: seq<int>, t: seq<int>, xs: seq<int>)
    requires Reduced(s)
    ensures ComposeIntentions(s, ComposeIntentions(t, xs)) == ComposeIntentions(ComposeIntentions(s, t), xs)
    decreases |xs|
  {
    if |xs| > 0 {
      var xs' := xs[..|xs| - 1];
      var x := xs[|xs| - 1];
      ComposeIntentionsStep(s, ComposeIntentions(t, xs'), x);
      ComposeIntentionsNested(s, t, xs');
    }
  }

  /** The normal form of a list of intentions is reduced and is its own
      normal form. */
  lemma NormalFormIsIdempotent(xs: seq<int>)
    ensures Reduced(ComposeIntentions([], xs))
    ensures ComposeIntentions([], ComposeIntentions([], xs)) == ComposeIntentions([], xs)
  {
    ComposeIntentionsPreservesReduced([], xs);
    ComposeIntentionsOfReduced([], ComposeIntentions([], xs));
    assert [] + ComposeIntentions([], xs) == ComposeIntentions([], xs);
  }

  /** Composing onto a reduced context only depends on the normal form of
      the intentions: `a`, then `b` normalised, then `c` acts like `a`, `b`, `c`. */
  lemma ComposeIntentionsNormalisedMiddle(s: seq<int>, a: seq<int>, b: seq<int>, c: seq<int>)
    requires Reduced(s)
    ensures ComposeIntentions(s, a + ComposeIntentions([], b) + c) == ComposeIntentions(s, a + b + c)
  {
    var sa := ComposeIntentions(s, a);
    ComposeIntentionsPreservesReduced(s, a);
    ComposeIntentionsAppend(s, a + ComposeIntentions([], b), c);
    ComposeIntentionsAppend(s, a, ComposeIntentions([], b));
    ComposeIntentionsNested(sa, [], b);
    assert ComposeIntentions(sa, []) == sa;
    ComposeIntentionsAppend(s, a, b);
    ComposeIntentionsAppend(s, a + b, c);
  }

  /** Inverting twice gives the original intentions back. */
  lemma InverseInverse(xs: seq<int>)
    ensures Inverse(Inverse(xs)) == xs
  {
  }
}

=== FILE: rebaser_harness.dfy ===
/** The pieces the test change family hands to the exhaustive rebaser suite:
    the generator of child field states, the operation record, and the
    helper that rebases a change over the composition of several base
    changes.

    A field state holds the document content reached so far, the edit that
    produced it and the state it was produced from; the root is the state
    with empty content. */
module RebaserHarness {
  import opened Wrappers
  import opened IntentionAlgebra
  import opened TestChanges
  import opened TestChangeDelta

  /** The edit that produced a state: its tagged change, a printable
      description and the intention it carries. */
  datatype Edit = Edit(changeset: TaggedChange, description: string, intention: int)

  datatype FieldState = FieldState(content: seq<int>, mostRecentEdit: Option<Edit>, parent: Option<FieldState>)

  /** The state the suite starts from. */
  const InitialState: FieldState := FieldState([], None, None)

  /** `generateChildStates`: given a state and the next fresh intention,
      yields the one state reached by minting that intention against the
      state's content. The intention's JSON text is an integer literal. */
  function GenerateChildStates(state: FieldState, tagFromIntention: int -> RevisionTag, intention: int): (r: seq<FieldState>)
    ensures |r| == 1 && r[0].parent == Some(state) && r[0].mostRecentEdit.Some?
    ensures r[0].mostRecentEdit.value.intention == intention
    ensures r[0].mostRecentEdit.value.changeset.revision == Some(tagFromIntention(intention))
    ensures r[0].mostRecentEdit.value.changeset.change.Intentions() == [intention]
    ensures r[0].mostRecentEdit.value.changeset.change.inputContext == state.content
    ensures ParseInt(r[0].mostRecentEdit.value.description) == Some(intention)
    ensures |state.content| == 0 || state.content[|state.content| - 1] != -intention ==>
      r[0].content == state.content + [intention]
  {
    var change := MintOne(state.content, intention);
    IntToStringRoundTrip(intention);
    ComposeIntentionsSnoc(state.content, [], intention);
    assert [] + [intention] == [intention];
    [FieldState(
      change.outputContext,
      Some(Edit(TagChange(change, tagFromIntention(intention)), IntToString(intention), intention)),
      Some(state))]
  }

  /** The state the suite started from. The root of a well-formed state
      is itself well formed, and the first edit on the way down was minted
      against the root's content. */
  function RootOf(state: FieldState): (root: FieldState)
    ensures root.parent.None?
    ensures WellFormed(state) ==> WellFormed(root) && Reduced(root.content)
    ensures WellFormed(state) && state.parent.Some? ==>
      PathEdits(state)[0].change.Change? && PathEdits(state)[0].change.inputContext == root.content
    decreases state
  {
    match state.parent
    case None => state
    case Some(p) =>
      assert WellFormed(state) && p.parent.Some? ==> PathEdits(state)[0] == PathEdits(p)[0];
      RootOf(p)
  }

  /** A state built by the generator from a root with reduced content: each
      child's edit mints its intention against its parent's content, and
      the child's content is that edit's output context. */
  predicate WellFormed(state: FieldState)
    decreases state
  {
    match state.parent
    case None => state.mostRecentEdit.None? && Reduced(state.content)
    case Some(p) =>
      && state.mostRecentEdit.Some?
      && state.mostRecentEdit.value.changeset.change == MintOne(p.content, state.mostRecentEdit.value.intention)
      && state.content == state.mostRecentEdit.value.changeset.change.outputContext
      && WellFormed(p)
  }

  /** The edits on the way from the root to `state`, oldest first. */
  function PathEdits(state: FieldState): (path: seq<TaggedChange>)
    requires WellFormed(state)
    ensures |path| == 0 <==> state.parent.None?
    decreases state
  {
    match state.parent
    case None => []
    case Some(p) => PathEdits(p) + [state.mostRecentEdit.value.changeset]
  }

  /** The generator keeps the tree well formed. */
  lemma GeneratedStateWellFormed(state: FieldState, tagFromIntention: int -> RevisionTag, intention: int)
    requires WellFormed(state)
    ensures forall k :: 0 <= k < |GenerateChildStates(state, tagFromIntention, intention)| ==>
      WellFormed(GenerateChildStates(state, tagFromIntention, intention)[k])
  {
  }

  /** The initial state is well formed. */
  lemma InitialStateWellFormed()
    ensures WellFormed(InitialState) && PathEdits(InitialState) == []
  {
  }

  /** Along any path the generator builds, every edit is a valid change and
      every content is reduced. */
  lemma {:induction false} PathValid(state: FieldState)
    requires WellFormed(state)
    ensures AllValid(PathEdits(state))
    ensures Reduced(state.content)
    decreases state
  {
    match state.parent
    case None =>
    case Some(p) =>
      PathValid(p);
      var prefix := PathEdits(p);
      var e := state.mostRecentEdit.value;
      var path := PathEdits(state);
      assert path == prefix + [e.changeset];
      assert Valid(e.changeset.change);
      forall k | 0 <= k < |path|
        ensures Valid(path[k].change)
      {
        if k < |prefix| {
          assert path[k] == prefix[k];
        }
      }
      ComposeIntentionsPreservesReduced(p.content, [e.intention]);
  }

  /** The edits along a path chain, and composing them replays the path:
      from the root's content to the state's content, with the path's
      intentions normalised. */
  lemma {:induction false} PathReplays(state: FieldState)
    requires WellFormed(state)
    ensures ContextsChain(PathEdits(state))
    ensures state.content == ComposeIntentions(RootOf(state).content, AllIntentions(PathEdits(state)))
    ensures state.parent.Some? ==>
      ComposeValue(PathEdits(state)) == Change(RootOf(state).content,
                                               ComposeIntentions([], AllIntentions(PathEdits(state))),
                                               state.content)
    decreases state
  {
    match state.parent
    case None =>
    case Some(p) =>
      PathReplays(p);
      var prefix := PathEdits(p);
      var e := state.mostRecentEdit.value;
      var path := PathEdits(state);
      assert path == prefix + [e.changeset];
      Singleton(e.changeset);
      NonEmptyChangesAppend(prefix, [e.changeset]);
      assert path[..|path| - 1] == prefix;
      ExtendPath(prefix, path, e.changeset, p.content, RootOf(p).content, e.intention, p.parent.Some?);
      assert RootOf(state) == RootOf(p);
  }

  /** One generator step along a path: appending the edit that mints
      `intention` against the content the prefix reaches. */
  lemma ExtendPath(prefix: seq<TaggedChange>, path: seq<TaggedChange>, edit: TaggedChange,
                   content: seq<int>, rootContent: seq<int>, intention: int, nonRoot: bool)
    requires path == prefix + [edit] && path[..|path| - 1] == prefix
    requires edit.change == MintOne(content, intention)
    requires nonRoot <==> |prefix| > 0
    requires NonEmptyChanges(path) == NonEmptyChanges(prefix) + [edit.change]
    requires AllIntentions(path) == AllIntentions(prefix) + [intention]
    requires ContextsChain(prefix)
    requires content == ComposeIntentions(rootContent, AllIntentions(prefix))
    requires nonRoot ==> ComposeValue(prefix) == Change(rootContent, ComposeIntentions([], AllIntentions(prefix)), content)
    requires !nonRoot ==> content == rootContent && |NonEmptyChanges(prefix)| == 0
    ensures ContextsChain(path)
    ensures edit.change.outputContext == ComposeIntentions(rootContent, AllIntentions(path))
    ensures ComposeValue(path) == Change(rootContent, ComposeIntentions([], AllIntentions(path)), edit.change.outputContext)
  {
    ComposeIntentionsSnoc(rootContent, AllIntentions(prefix), intention);
    MintExtendsContext(content, intention);
    ExtendPathChains(prefix, path, edit, content, nonRoot);
    var ne := NonEmptyChanges(path);
    assert ne[0].inputContext == rootContent by {
      if nonRoot {
        assert ne[0] == NonEmptyChanges(prefix)[0];
      } else {
        assert ne == [edit.change];
      }
    }
  }

  lemma ExtendPathChains(prefix: seq<TaggedChange>, path: seq<TaggedChange>, edit: TaggedChange,
                         content: seq<int>, nonRoot: bool)
    requires path == prefix + [edit] && path[..|path| - 1] == prefix
    requires edit.change.Change? && edit.change.inputContext == content
    requires ContextsChain(prefix)
    requires nonRoot ==> ComposeValue(prefix).Change? && ComposeValue(prefix).outputContext == content
    requires !nonRoot ==> |NonEmptyChanges(prefix)| == 0
    ensures ContextsChain(path)
  {
    if nonRoot {
      assert Accumulate(prefix).outputContext == Some(content);
    }
  }

  /** The suite's `rebase`, over the base's change. A missing result would
      stand for `emptyChange`, but a defined change always rebases to a
      value or to the contract violation, so the fallback never applies. */
  function SuiteRebase(change: TestChange, base: TaggedChange): (r: Result<TestChange, RebaseError>)
    ensures r.Failure? <==> !Compatible(change, base.change)
    ensures r.Success? ==> r.value.Intentions() == change.Intentions() && (r.value.Empty? <==> change.Empty?)
    ensures r.Success? && r.value.Change? && base.change.Change? ==> r.value.inputContext == base.change.outputContext
    ensures base.change.Empty? ==> r == Success(change)
  {
    Rebase(change, base.change)
  }

  /** The suite's `invert`: the revision of the tagged change is dropped and
      the change runs backwards. */
  function SuiteInvert(change: TaggedChange): (r: TestChange)
    ensures r.Empty? <==> change.change.Empty?
    ensures r.Intentions() == Inverse(change.change.Intentions())
    ensures r.Change? ==> r.inputContext == change.change.outputContext && r.outputContext == change.change.inputContext
  {
    Invert(change.change)
  }

  /** Why `rebaseComposed` gives up: the base changes do not compose, or the
      change did not branch from where their composition starts. */
  datatype RebaseComposedError = BasesDoNotCompose | RebaseFailed(error: RebaseError)

  /** `rebaseComposed(metadata, change, ...baseChanges)`: composes the base
      changes (verifying that they chain) and rebases `change` over the
      result. Its "Shouldn't get undefined." assertion cannot fire: a rebase
      always has a result. */
  function RebaseComposed(change: TestChange, baseChanges: seq<TaggedChange>): (r: Result<TestChange, RebaseComposedError>)
    ensures r == Failure(BasesDoNotCompose) <==> !ContextsChain(baseChanges)
    ensures r == Failure(RebaseFailed(IncompatibleBase)) <==>
      ContextsChain(baseChanges) && !Compatible(change, ComposeValue(baseChanges))
    ensures r.Success? ==> r.value.Intentions() == change.Intentions() && (r.value.Empty? <==> change.Empty?)
  {
    match Compose(baseChanges)
    case Failure(_) => Failure(BasesDoNotCompose)
    case Success(composed) =>
      match Rebase(change, composed)
      case Failure(e) => Failure(RebaseFailed(e))
      case Success(rebased) => Success(rebased)
  }

  /** Rebasing over each base change in turn, as the suite's `rebase` does;
      the first contract violation stops the walk. */
  function RebaseOverEach(change: TestChange, baseChanges: seq<TaggedChange>): (r: Result<TestChange, RebaseError>)
    ensures |NonEmptyChanges(baseChanges)| == 0 ==> r == Success(change)
    ensures change.Empty? ==> r == Success(Empty)
    ensures r.Success? ==> r.value.Intentions() == change.Intentions() && (r.value.Empty? <==> change.Empty?)
    ensures r.Success? && change.Change? && |NonEmptyChanges(baseChanges)| > 0 ==>
      && change.inputContext == NonEmptyChanges(baseChanges)[0].inputContext
      && r.value == Mint(NonEmptyChanges(baseChanges)[|NonEmptyChanges(baseChanges)| - 1].outputContext, change.intentions)
    decreases |baseChanges|
  {
    if |baseChanges| == 0 then Success(change)
    else
      match RebaseOverEach(change, baseChanges[..|baseChanges| - 1])
      case Failure(e) => Failure(e)
      case Success(c) => SuiteRebase(c, baseChanges[|baseChanges| - 1])
  }

  /** Along valid base changes that chain, rebasing a change that branched
      from where they start succeeds at every step. */
  lemma {:induction false} RebaseOverEachSucceeds(change: TestChange, baseChanges: seq<TaggedChange>)
    requires AllValid(baseChanges) && ContextsChain(baseChanges)
    requires change.Change? && |NonEmptyChanges(baseChanges)| > 0 ==>
      change.inputContext == NonEmptyChanges(baseChanges)[0].inputContext
    ensures RebaseOverEach(change, baseChanges).Success?
    decreases |baseChanges|
  {
    if |baseChanges| > 0 && change.Change? {
      var prefix := baseChanges[..|baseChanges| - 1];
      var last := baseChanges[|baseChanges| - 1];
      assert AllValid(prefix);
      var ne' := NonEmptyChanges(prefix);
      if |ne'| > 0 {
        assert NonEmptyChanges(baseChanges)[0] == ne'[0];
        RebaseOverEachSucceeds(change, prefix);
        ComposeEndsAtLastOutput(prefix);
      } else if last.change.Change? {
        assert NonEmptyChanges(baseChanges) == [last.change];
      }
    }
  }

  /** Rebasing over the composition of valid, chaining base changes agrees
      with rebasing over one base change at a time: both succeed, with the
      same change, or both meet the contract violation. */
  lemma RebaseOverCompositionIsStepwise(change: TestChange, baseChanges: seq<TaggedChange>)
    requires AllValid(baseChanges) && ContextsChain(baseChanges)
    ensures RebaseOverEach(change, baseChanges).Success? ==>
      RebaseComposed(change, baseChanges) == Success(RebaseOverEach(change, baseChanges).value)
    ensures RebaseOverEach(change, baseChanges).Failure? ==>
      RebaseComposed(change, baseChanges) == Failure(RebaseFailed(IncompatibleBase))
  {
    var ne := NonEmptyChanges(baseChanges);
    if |ne| > 0 {
      ComposeEndsAtLastOutput(baseChanges);
      if change.Change? && change.inputContext == ne[0].inputContext {
        RebaseOverEachSucceeds(change, baseChanges);
      }
    }
  }

  /** Along a path the generator builds, rebasing a change that branched
      from the root over the composed path succeeds and mints the change's
      intentions against the state's content; a non-empty change minted
      against another context is rejected. */
  lemma RebaseOverPath(change: TestChange, state: FieldState)
    requires WellFormed(state)
    ensures change.Empty? || change.inputContext == RootOf(state).content ==>
      RebaseComposed(change, PathEdits(state)).Success?
    ensures change.Change? && change.inputContext == RootOf(state).content && state.parent.Some? ==>
      RebaseComposed(change, PathEdits(state)) == Success(Mint(state.content, change.intentions))
    ensures change.Change? && state.parent.Some? && change.inputContext != RootOf(state).content ==>
      RebaseComposed(change, PathEdits(state)) == Failure(RebaseFailed(IncompatibleBase))
  {
    PathValid(state);
    PathReplays(state);
    RebaseOverCompositionIsStepwise(change, PathEdits(state));
  }

  /** Rebasing a valid change over a base it branched from, then over the
      base's inverse, brings the change back to where it was. */
  lemma RebaseOverInverseRestores(change: TestChange, base: TestChange)
    requires Valid(change) && Compatible(change, base)
    ensures SuiteRebase(change, MakeAnonChange(base)).Success?
    ensures SuiteRebase(SuiteRebase(change, MakeAnonChange(base)).value, MakeAnonChange(SuiteInvert(MakeAnonChange(base))))
         == Success(change)
  {
  }
}

=== FILE: shared_map.dfy ===
/** Message routing of the shared map.

    The map keeps a table of message handlers keyed by operation type. It
    starts with handlers for `clear`, `delete` and `set`; registering a value
    type adds (or replaces) the handler under the type's name. Every
    decision the map makes about a message asks the same question, whether
    the table has a handler for the message's type: such messages are the
    map's own, the rest belong to the content a derived class keeps beside
    the map.

    The map's view is not modelled: a handler's effect is recorded as the
    call it makes on the view, or on a value type's operation. */
module SharedMapRouting {
  import opened Wrappers

  /** The `value` of an operation: absent, or a typed value (for a value
      type operation, the operation's name and its argument). */
  datatype OpValue = NoValue | Value(valueType: string, value: string)

  /** The contents of a message: an operation on the map, or a content
      message that carries a type in the same place. */
  datatype MapOperation = MapOperation(opType: string, key: string, value: OpValue)

  /** The type of a sequenced message: an operation, or any other kind. */
  datatype MessageType = Operation | OtherMessageType(name: string)

  datatype SequencedMessage = SequencedMessage(messageType: MessageType, contents: MapOperation)

  /** A message not yet sequenced, as held while disconnected. */
  datatype DocumentMessage = DocumentMessage(contents: MapOperation)

  /** A value type: its name and the names of the operations it accepts. */
  datatype ValueType = ValueType(name: string, ops: set<string>)

  datatype Handler =
    | ClearHandler
    | DeleteHandler
    | SetHandler
    | ValueTypeHandler(valueType: ValueType)

  datatype SharedMap = SharedMap(messageHandler: map<string, Handler>, valueTypes: map<string, ValueType>)

  const ClearType: string := "clear"
  const DeleteType: string := "delete"
  const SetType: string := "set"
  const UnknownTypeMessage: string := "Unknown type message"

  /** The one question behind every routing decision. */
  predicate Handles(m: SharedMap, opType: string)
  {
    opType in m.messageHandler
  }

  /** The handler table of a fresh map holds the three core operations, and
      no value type is registered. */
  function Create(): (m: SharedMap)
    ensures m.messageHandler.Keys == {ClearType, DeleteType, SetType}
    ensures m.messageHandler[ClearType] == ClearHandler
    ensures m.messageHandler[DeleteType] == DeleteHandler
    ensures m.messageHandler[SetType] == SetHandler
    ensures m.valueTypes == map[]
  {
    SharedMap(map[ClearType := ClearHandler, DeleteType := DeleteHandler, SetType := SetHandler], map[])
  }

  /** Every registered value type is filed under its own name and handled
      by its own handler, and every value type handler belongs to a
      registered value type. */
  predicate Consistent(m: SharedMap)
  {
    && (forall name :: name in m.valueTypes ==>
          m.valueTypes[name].name == name
          && name in m.messageHandler
          && m.messageHandler[name] == ValueTypeHandler(m.valueTypes[name]))
    && (forall name :: name in m.messageHandler && m.messageHandler[name].ValueTypeHandler? ==>
          name in m.valueTypes)
  }

  /** `registerValueType(type)`: records the type and installs its handler
      under the type's name, replacing whatever handler had that name
      (a core one included). Nothing else changes. */
  function RegisterValueType(m: SharedMap, t: ValueType): (r: SharedMap)
    ensures HasValueType(r, t.name) && GetValueType(r, t.name) == Some(t)
    ensures Handles(r, t.name) && r.messageHandler[t.name] == ValueTypeHandler(t)
    ensures r.messageHandler.Keys == m.messageHandler.Keys + {t.name}
    ensures r.valueTypes.Keys == m.valueTypes.Keys + {t.name}
    ensures forall name :: name in m.messageHandler && name != t.name ==> r.messageHandler[name] == m.messageHandler[name]
    ensures forall name :: name in m.valueTypes && name != t.name ==> r.valueTypes[name] == m.valueTypes[name]
  {
    SharedMap(m.messageHandler[t.name := ValueTypeHandler(t)], m.valueTypes[t.name := t])
  }

  /** `hasValueType(type)`: in a consistent map, a type is registered
      exactly when its name is handled by a value type handler. */
  function HasValueType(m: SharedMap, name: string): (b: bool)
    ensures Consistent(m) ==> (b <==> name in m.messageHandler && m.messageHandler[name].ValueTypeHandler?)
  {
    name in m.valueTypes
  }

  /** `getValueType(type)`: the registered type, or nothing. */
  function GetValueType(m: SharedMap, name: string): (r: Option<ValueType>)
    ensures r.Some? <==> HasValueType(m, name)
    ensures r.Some? ==> r.value == m.valueTypes[name]
  {
    if name in m.valueTypes then Some(m.valueTypes[name]) else None
  }

  /** Why a value type operation cannot be handled. */
  datatype HandlerError =
    | UnknownType(message: string)
    | MissingValue

  /** `getOpHandler(op)` of a value type: the name of the type's operation
      the message asks for, or the "Unknown type message" error. An
      operation without a value has no operation name to look up. */
  function GetOpHandler(t: ValueType, op: MapOperation): (r: Result<string, HandlerError>)
    ensures r.Success? <==> op.value.Value? && op.value.valueType in t.ops
    ensures r.Success? ==> r.value == op.value.valueType
    ensures op.value.Value? && op.value.valueType !in t.ops ==> r == Failure(UnknownType(UnknownTypeMessage))
  {
    match op.value
    case NoValue => Failure(MissingValue)
    case Value(opName, _) =>
      if opName in t.ops then Success(opName) else Failure(UnknownType(UnknownTypeMessage))
  }

  /** `isMapMessage(message)`: a pending message is the map's exactly when,
      once sequenced as an operation, the map's handlers would route it. */
  function IsMapMessage(m: SharedMap, message: DocumentMessage): (b: bool)
    ensures b <==> Routed(m, SequencedMessage(Operation, message.contents))
  {
    Handles(m, message.contents.opType)
  }

  /** The hook through which a derived class transforms its content messages. */
  type TransformHook = (MapOperation, int, int) -> MapOperation

  /** `transformContent`, as the map itself defines it. */
  function DefaultTransformContent(message: MapOperation, referenceSequenceNumber: int, sequenceNumber: int): MapOperation
  {
    message
  }

  /** `transform(message, referenceSequenceNumber, sequenceNumber)`: the
      map's own messages pass through untouched; the others go through the
      content hook. */
  function Transform(m: SharedMap, message: MapOperation, referenceSequenceNumber: int, sequenceNumber: int,
                     transformContent: TransformHook): (r: MapOperation)
    ensures Handles(m, message.opType) ==> r == message
  {
    if Handles(m, message.opType) then message else transformContent(message, referenceSequenceNumber, sequenceNumber)
  }

  /** A map that keeps the default hook transforms nothing. */
  lemma DefaultTransformIsIdentity(m: SharedMap, message: MapOperation, referenceSequenceNumber: int, sequenceNumber: int)
    ensures Transform(m, message, referenceSequenceNumber, sequenceNumber, DefaultTransformContent) == message
  {
  }

  /** Only content messages reach the hook: two hooks that agree on a
      message give the same transform of it, and for the map's own messages
      any two hooks do. */
  lemma TransformConsultsHookOnlyForContent(m: SharedMap, message: MapOperation, referenceSequenceNumber: int,
                                            sequenceNumber: int, h1: TransformHook, h2: TransformHook)
    ensures Handles(m, message.opType) ==>
      Transform(m, message, referenceSequenceNumber, sequenceNumber, h1)
        == Transform(m, message, referenceSequenceNumber, sequenceNumber, h2)
    ensures !Handles(m, message.opType) ==>
      Transform(m, message, referenceSequenceNumber, sequenceNumber, h1) == h1(message, referenceSequenceNumber, sequenceNumber)
  {
  }

  /** What preparing a message resolves to, or the call it delegates to. */
  datatype Prepared =
    | ResolvedUndefined
    | ResolvedNull
    | ViewPrepareSet(key: string, value: OpValue)
    | ValueOpPrepare(valueTypeName: string, opName: string, key: string, argument: string, local: bool)
    | PrepareFailed(error: HandlerError)
    | ContentPrepare(message: SequencedMessage, local: bool)

  /** An operation message whose type has a handler. */
  predicate Routed(m: SharedMap, message: SequencedMessage)
  {
    message.messageType == Operation && Handles(m, message.contents.opType)
  }

  /** `prepareCore(message, local)`. */
  function PrepareCore(m: SharedMap, message: SequencedMessage, local: bool): (r: Prepared)
    ensures r.ContentPrepare? <==> !Routed(m, message)
    ensures r.ContentPrepare? ==> r == ContentPrepare(message, local)
    ensures Routed(m, message) && m.messageHandler[message.contents.opType] in {ClearHandler, DeleteHandler} ==>
      r == ResolvedUndefined
    ensures Routed(m, message) && m.messageHandler[message.contents.opType] == SetHandler && local ==> r == ResolvedNull
    ensures Routed(m, message) && m.messageHandler[message.contents.opType] == SetHandler && !local ==>
      r == ViewPrepareSet(message.contents.key, message.contents.value)
    ensures Routed(m, message) && m.messageHandler[message.contents.opType].ValueTypeHandler? ==>
      var t := m.messageHandler[message.contents.opType].valueType;
      match GetOpHandler(t, message.contents)
      case Failure(e) => r == PrepareFailed(e)
      case Success(opName) => r == ValueOpPrepare(t.name, opName, message.contents.key, message.contents.value.value, local)
    ensures r.ValueOpPrepare? ==> r.local == local && r.key == message.contents.key
  {
    var op := message.contents;
    if Routed(m, message) then
      match m.messageHandler[op.opType]
      case ClearHandler => ResolvedUndefined
      case DeleteHandler => ResolvedUndefined
      case SetHandler => if local then ResolvedNull else ViewPrepareSet(op.key, op.value)
      case ValueTypeHandler(t) =>
        match GetOpHandler(t, op)
        case Failure(e) => PrepareFailed(e)
        case Success(opName) => ValueOpPrepare(t.name, opName, op.key, op.value.value, local)
    else ContentPrepare(message, local)
  }

  /** A call on the view, or on a value type's operation, made while
      processing; `C` is the context preparation produced. */
  datatype ViewCall<C> =
    | ClearCore
    | DeleteCore(key: string)
    | SetCore(key: string, context: C)
    | ValueOpProcess(valueTypeName: string, opName: string, key: string, argument: string, context: C, local: bool)

  datatype Processed<C> =
    | Handled(handler: string, call: Option<ViewCall<C>>)
    | HandlerFailed(error: HandlerError)
    | ContentProcessed(message: SequencedMessage, local: bool, context: C)

  /** `processCore(message, local, context)`. Messages this client sent
      were applied to the view when they were made, so their `clear`,
      `delete` and `set` handlers leave the view alone. */
  function ProcessCore<C>(m: SharedMap, message: SequencedMessage, local: bool, context: C): (r: Processed<C>)
    ensures r.ContentProcessed? <==> !Routed(m, message)
    ensures r.ContentProcessed? ==> r == ContentProcessed(message, local, context)
    ensures r.Handled? ==> r.handler == message.contents.opType
    ensures Routed(m, message) && local && !m.messageHandler[message.contents.opType].ValueTypeHandler? ==>
      r == Handled(message.contents.opType, None)
    ensures Routed(m, message) && !local ==>
      (m.messageHandler[message.contents.opType] == ClearHandler ==> r.Handled? && r.call == Some(ClearCore)) &&
      (m.messageHandler[message.contents.opType] == DeleteHandler ==> r.Handled? && r.call == Some(DeleteCore(message.contents.key))) &&
      (m.messageHandler[message.contents.opType] == SetHandler ==> r.Handled? && r.call == Some(SetCore(message.contents.key, context)))
  {
    var op := message.contents;
    if Routed(m, message) then
      match m.messageHandler[op.opType]
      case ClearHandler => Handled(op.opType, if local then None else Some(ClearCore))
      case DeleteHandler => Handled(op.opType, if local then None else Some(DeleteCore(op.key)))
      case SetHandler => Handled(op.opType, if local then None else Some(SetCore(op.key, context)))
      case ValueTypeHandler(t) =>
        match GetOpHandler(t, op)
        case Failure(e) => HandlerFailed(e)
        case Success(opName) => Handled(op.opType, Some(ValueOpProcess(t.name, opName, op.key, op.value.value, context, local)))
    else ContentProcessed(message, local, context)
  }

  /** Preparing and processing route a message the same way: both go to
      the content, or both to the same handler, and a value type operation
      fails in one exactly when it fails in the other. */
  lemma PrepareAndProcessAgree<C>(m: SharedMap, message: SequencedMessage, local: bool, context: C)
    ensures PrepareCore(m, message, local).ContentPrepare? <==> ProcessCore(m, message, local, context).ContentProcessed?
    ensures PrepareCore(m, message, local).PrepareFailed? <==> ProcessCore(m, message, local, context).HandlerFailed?
    ensures PrepareCore(m, message, local).ValueOpPrepare? ==>
      var p := PrepareCore(m, message, local);
      ProcessCore(m, message, local, context) == Handled(message.contents.opType,
        Some(ValueOpProcess(p.valueTypeName, p.opName, p.key, p.argument, context, local)))
  {
  }

  /** A registered value type's messages are map messages, an operation
      its table lacks fails with "Unknown type message" on both paths, and
      one it has reaches that operation's `prepare` and `process`. */
  lemma RegisteredValueTypeRoutes<C>(m: SharedMap, t: ValueType, key: string, opName: string, arg: string,
                                     local: bool, context: C)
    ensures var r := RegisterValueType(m, t);
      var message := SequencedMessage(Operation, MapOperation(t.name, key, Value(opName, arg)));
      && IsMapMessage(r, DocumentMessage(message.contents))
      && (opName !in t.ops ==>
            PrepareCore(r, message, local) == PrepareFailed(UnknownType(UnknownTypeMessage))
            && ProcessCore(r, message, local, context) == HandlerFailed(UnknownType(UnknownTypeMessage)))
      && (opName in t.ops ==>
            PrepareCore(r, message, local) == ValueOpPrepare(t.name, opName, key, arg, local)
            && ProcessCore(r, message, local, context) == Handled(t.name, Some(ValueOpProcess(t.name, opName, key, arg, context, local))))
  {
  }

  /** A fresh map is consistent, and registering keeps it so. */
  lemma CreateConsistent()
    ensures Consistent(Create())
  {
  }

  lemma RegisterKeepsConsistent(m: SharedMap, t: ValueType)
    requires Consistent(m)
    ensures Consistent(RegisterValueType(m, t))
  {
  }

  // Reconnecting.

  /** The pending messages of one side of the split, in their order. */
  function Select(m: SharedMap, pending: seq<DocumentMessage>, mapSide: bool): (r: seq<DocumentMessage>)
    ensures forall k :: 0 <= k < |r| ==> IsMapMessage(m, r[k]) == mapSide
    ensures |r| <= |pending|
    decreases |pending|
  {
    if |pending| == 0 then []
    else
      var last := pending[|pending| - 1];
      Select(m, pending[..|pending| - 1], mapSide) + (if IsMapMessage(m, last) == mapSide then [last] else [])
  }

  /** The contents of messages, in order. */
  function Contents(messages: seq<DocumentMessage>): (r: seq<MapOperation>)
    ensures |r| == |messages|
    ensures forall k :: 0 <= k < |r| ==> r[k] == messages[k].contents
    decreases |messages|
  {
    if |messages| == 0 then [] else Contents(messages[..|messages| - 1]) + [messages[|messages| - 1].contents]
  }

  /** The pending messages in the order reconnecting resubmits them: every
      pending message exactly once, the map's messages before the content's. */
  function Reordered(m: SharedMap, pending: seq<DocumentMessage>): (r: seq<DocumentMessage>)
    ensures multiset(r) == multiset(pending)
    ensures |r| == |pending|
    ensures var n := |Select(m, pending, true)|;
      && (forall k :: 0 <= k < n ==> IsMapMessage(m, r[k]))
      && (forall k :: n <= k < |r| ==> !IsMapMessage(m, r[k]))
  {
    var a, b := Select(m, pending, true), Select(m, pending, false);
    SelectPartitions(m, pending);
    assert multiset(a + b) == multiset(a) + multiset(b);
    assert |a + b| == |multiset(a + b)| == |multiset(pending)| == |pending|;
    a + b
  }

  /** One more pending message joins exactly one side of the split. */
  lemma SelectSnoc(m: SharedMap, prefix: seq<DocumentMessage>, last: DocumentMessage, pending: seq<DocumentMessage>)
    requires pending == prefix + [last]
    ensures IsMapMessage(m, last) ==>
      Select(m, pending, true) == Select(m, prefix, true) + [last] && Select(m, pending, false) == Select(m, prefix, false)
    ensures !IsMapMessage(m, last) ==>
      Select(m, pending, true) == Select(m, prefix, true) && Select(m, pending, false) == Select(m, prefix, false) + [last]
  {
    assert pending[..|pending| - 1] == prefix;
  }

  /** The split loses and duplicates no message. */
  lemma {:induction false} SelectPartitions(m: SharedMap, pending: seq<DocumentMessage>)
    ensures multiset(Select(m, pending, true)) + multiset(Select(m, pending, false)) == multiset(pending)
    decreases |pending|
  {
    if |pending| > 0 {
      var prefix := pending[..|pending| - 1];
      var last := pending[|pending| - 1];
      assert pending == prefix + [last];
      assert multiset(pending) == multiset(prefix) + multiset{last};
      SelectPartitions(m, prefix);
      SelectSnoc(m, prefix, last, pending);
    }
  }

  lemma ContentsAppend(a: seq<DocumentMessage>, b: seq<DocumentMessage>)
    ensures Contents(a + b) == Contents(a) + Contents(b)
  {
  }

  /** The split keeps order within each group: splitting a concatenation
      splits each part and concatenates the results, so a message that came
      before another of its group still does. */
  lemma {:induction false} SelectAppend(m: SharedMap, a: seq<DocumentMessage>, b: seq<DocumentMessage>, mapSide: bool)
    ensures Select(m, a + b, mapSide) == Select(m, a, mapSide) + Select(m, b, mapSide)
    decreases |b|
  {
    if |b| == 0 {
      assert a + b == a;
    } else {
      var b' := b[..|b| - 1];
      assert (a + b)[..|a + b| - 1] == a + b';
      SelectAppend(m, a, b', mapSide);
    }
  }

  /** `onConnectContent(pending)`, as the map itself defines it: resubmits
      every content message in order. */
  method OnConnectContent(pending: seq<DocumentMessage>) returns (submitted: seq<MapOperation>)
    ensures |submitted| == |pending|
    ensures forall k :: 0 <= k < |pending| ==> submitted[k] == pending[k].contents
  {
    submitted := [];
    for i := 0 to |pending|
      invariant |submitted| == i
      invariant forall k :: 0 <= k < i ==> submitted[k] == pending[k].contents
    {
      submitted := submitted + [pending[i].contents];
    }
  }

  /** `onConnect(pending)`: splits the pending messages into the map's and
      the content's, resubmits the map's, then hands the content's to
      `onConnectContent`. */
  method OnConnect(m: SharedMap, pending: seq<DocumentMessage>) returns (submitted: seq<MapOperation>)
    ensures submitted == Contents(Reordered(m, pending))
    ensures |submitted| == |pending|
  {
    var mapMessages: seq<DocumentMessage> := [];
    var contentMessages: seq<DocumentMessage> := [];
    for i := 0 to |pending|
      invariant mapMessages == Select(m, pending[..i], true)
      invariant contentMessages == Select(m, pending[..i], false)
    {
      assert pending[..i + 1][..i] == pending[..i];
      if IsMapMessage(m, pending[i]) {
        mapMessages := mapMessages + [pending[i]];
      } else {
        contentMessages := contentMessages + [pending[i]];
      }
    }
    assert pending[..|pending|] == pending;
    submitted := [];
    for i := 0 to |mapMessages|
      invariant submitted == Contents(mapMessages[..i])
    {
      assert mapMessages[..i + 1][..i] == mapMessages[..i];
      submitted := submitted + [mapMessages[i].contents];
    }
    assert mapMessages[..|mapMessages|] == mapMessages;
    var content := OnConnectContent(contentMessages);
    assert content == Contents(contentMessages);
    submitted := submitted + content;
    ContentsAppend(mapMessages, contentMessages);
    assert |multiset(Reordered(m, pending))| == |multiset(pending)|;
  }

  // Loading.

  /** The messages `loadCore` hands to `loadContent`: those whose contents'
      type has no handler, whatever kind of message carries them. */
  function LoadContentMessages(m: SharedMap, messages: seq<SequencedMessage>): (r: seq<SequencedMessage>)
    ensures forall k :: 0 <= k < |r| ==> !Handles(m, r[k].contents.opType)
    decreases |messages|
  {
    if |messages| == 0 then []
    else
      var last := messages[|messages| - 1];
      LoadContentMessages(m, messages[..|messages| - 1]) + (if Handles(m, last.contents.opType) then [] else [last])
  }

  /** The filter keeps the sequenced order: filtering a concatenation
      filters each part and joins the results. */
  lemma {:induction false} LoadContentMessagesAppend(m: SharedMap, a: seq<SequencedMessage>, b: seq<SequencedMessage>)
    ensures LoadContentMessages(m, a + b) == LoadContentMessages(m, a) + LoadContentMessages(m, b)
    decreases |b|
  {
    if |b| == 0 {
      assert a + b == a;
    } else {
      var b' := b[..|b| - 1];
      assert (a + b)[..|a + b| - 1] == a + b';
      LoadContentMessagesAppend(m, a, b');
    }
  }

  /** The filter keeps every content message as often as it occurs, and no
      map message. */
  lemma {:induction false} LoadContentMessagesExact(m: SharedMap, messages: seq<SequencedMessage>, x: SequencedMessage)
    ensures multiset(LoadContentMessages(m, messages))[x]
         == if Handles(m, x.contents.opType) then 0 else multiset(messages)[x]
    decreases |messages|
  {
    if |messages| > 0 {
      var prefix := messages[..|messages| - 1];
      LoadContentMessagesExact(m, prefix, x);
      assert messages == prefix + [messages[|messages| - 1]];
    }
  }
}

=== FILE: test_change.dfy ===
/** The test change family: the reference family the tree's rebaser is
    exercised against.

    A change records the context it was minted against, the intentions it
    applies and the context it produces. `Empty` is the family's
    `emptyChange`: it has no contexts and no intentions. */
module TestChanges {
  import opened Wrappers
  import opened IntentionAlgebra

  /** An opaque, mint-once identifier of an edit. */
  datatype RevisionTag = RevisionTag(id: nat)

  datatype TestChange =
    | Empty
    | Change(inputContext: seq<int>, intentions: seq<int>, outputContext: seq<int>)
  {
    /** The intentions of any change; `emptyChange` has none. */
    function Intentions(): seq<int>
    {
      if Empty? then [] else intentions
    }
  }

  /** A change paired with its revision, or with none for an anonymous change. */
  datatype TaggedChange = TaggedChange(change: TestChange, revision: Option<RevisionTag>)

  function MakeAnonChange(change: TestChange): TaggedChange
  {
    TaggedChange(change, None)
  }

  function TagChange(change: TestChange, tag: RevisionTag): TaggedChange
  {
    TaggedChange(change, Some(tag))
  }

  /** A change that keeps its promise: minted against a reduced context, its
      output context is that context with its intentions applied. */
  predicate Valid(c: TestChange)
  {
    c.Change? ==> Reduced(c.inputContext) && c.outputContext == ComposeIntentions(c.inputContext, c.intentions)
  }

  /** `mint(inputContext, intentions)`. */
  function Mint(inputContext: seq<int>, intentions: seq<int>): (c: TestChange)
    ensures c.Change? && c.inputContext == inputContext && c.intentions == intentions
    ensures Reduced(inputContext) ==> Valid(c)
  {
    Change(inputContext, intentions, ComposeIntentions(inputContext, intentions))
  }

  /** `mint(inputContext, intention)` with a single intention. */
  function MintOne(inputContext: seq<int>, intention: int): TestChange
  {
    Mint(inputContext, [intention])
  }

  /** Minting one intention takes the context one `Step`: it extends the
      context by that intention, unless it is the negation of the context's
      last entry, in which case that entry is cancelled. */
  lemma MintExtendsContext(context: seq<int>, intention: int)
    ensures MintOne(context, intention).outputContext == Step(context, intention)
    ensures |context| == 0 || context[|context| - 1] != -intention ==>
      MintOne(context, intention).outputContext == context + [intention]
    ensures |context| > 0 && context[|context| - 1] == -intention ==>
      MintOne(context, intention).outputContext + [context[|context| - 1]] == context
  {
    assert [intention][..0] == [];
    assert ComposeIntentions(context, [intention]) == Step(ComposeIntentions(context, []), intention);
    if |context| > 0 && context[|context| - 1] == -intention {
      assert context[..|context| - 1] + [context[|context| - 1]] == context;
    }
  }

  /** The non-empty changes of a list, in order. */
  function NonEmptyChanges(changes: seq<TaggedChange>): (r: seq<TestChange>)
    ensures forall k :: 0 <= k < |r| ==> r[k].Change?
    decreases |changes|
  {
    if |changes| == 0 then []
    else
      var c := changes[|changes| - 1].change;
      NonEmptyChanges(changes[..|changes| - 1]) + (if c.Change? then [c] else [])
  }

  /** All intentions of a list of changes, concatenated in order. */
  function AllIntentions(changes: seq<TaggedChange>): (r: seq<int>)
    ensures |NonEmptyChanges(changes)| == 0 ==> r == []
    decreases |changes|
  {
    if |changes| == 0 then []
    else AllIntentions(changes[..|changes| - 1]) + changes[|changes| - 1].change.Intentions()
  }

  /** Every non-empty change of the list was minted against a reduced context. */
  predicate InputsReduced(changes: seq<TaggedChange>)
  {
    forall i :: 0 <= i < |changes| && changes[i].change.Change? ==> Reduced(changes[i].change.inputContext)
  }

  predicate AllValid(changes: seq<TaggedChange>)
  {
    forall i :: 0 <= i < |changes| ==> Valid(changes[i].change)
  }

  /** What the composition loop carries from one change to the next: the
      input context of the first non-empty change, the output context built
      from it, and the composed intentions. */
  datatype Accumulator = Accumulator(inputContext: Option<seq<int>>, outputContext: Option<seq<int>>, intentions: seq<int>)

  /** Folds the composition loop over `changes`: the input context is the
      first non-empty change's, and is set exactly when the output context is. */
  function Accumulate(changes: seq<TaggedChange>): (acc: Accumulator)
    ensures acc.inputContext.Some? <==> |NonEmptyChanges(changes)| > 0
    ensures acc.inputContext.Some? <==> acc.outputContext.Some?
    ensures acc.inputContext.Some? ==> acc.inputContext.value == NonEmptyChanges(changes)[0].inputContext
    decreases |changes|
  {
    if |changes| == 0 then Accumulator(None, None, [])
    else
      var acc := Accumulate(changes[..|changes| - 1]);
      var c := changes[|changes| - 1].change;
      if c.Empty? then acc
      else
        var input := acc.inputContext.GetOr(c.inputContext);
        Accumulator(
          Some(input),
          Some(ComposeIntentions(acc.outputContext.GetOr(input), c.intentions)),
          ComposeIntentions(acc.intentions, c.intentions))
  }

  /** Whatever order the loop takes the changes in, it normalises all their
      intentions concatenated, both on their own and on top of the first
      input context. */
  lemma {:induction false} AccumulateNormalises(changes: seq<TaggedChange>)
    ensures Accumulate(changes).intentions == ComposeIntentions([], AllIntentions(changes))
    ensures Accumulate(changes).outputContext.Some? ==>
      Accumulate(changes).outputContext.value
        == ComposeIntentions(Accumulate(changes).inputContext.value, AllIntentions(changes))
    decreases |changes|
  {
    if |changes| > 0 {
      var prefix := changes[..|changes| - 1];
      AccumulateNormalises(prefix);
      var acc := Accumulate(prefix);
      var c := changes[|changes| - 1].change;
      if c.Empty? {
        assert AllIntentions(changes) == AllIntentions(prefix) + [] == AllIntentions(prefix);
      } else {
        var input := acc.inputContext.GetOr(c.inputContext);
        ComposeIntentionsAppend(input, AllIntentions(prefix), c.intentions);
        ComposeIntentionsAppend([], AllIntentions(prefix), c.intentions);
        assert [] + c.intentions == c.intentions;
      }
    }
  }

  /** The value `compose` produces, whether or not it verifies the contexts. */
  function ComposeValue(changes: seq<TaggedChange>): (r: TestChange)
    ensures r.Empty? <==> |NonEmptyChanges(changes)| == 0
    ensures r.Change? ==>
      && r.inputContext == NonEmptyChanges(changes)[0].inputContext
      && r.intentions == ComposeIntentions([], AllIntentions(changes))
      && r.outputContext == ComposeIntentions(r.inputContext, AllIntentions(changes))
  {
    AccumulateNormalises(changes);
    var acc := Accumulate(changes);
    if acc.inputContext.Some? then Change(acc.inputContext.value, acc.intentions, acc.outputContext.value)
    else Empty
  }

  /** The check `compose` makes when verifying: every non-empty change after
      the first starts from the output context accumulated so far. */
  predicate ContextsChain(changes: seq<TaggedChange>)
    decreases |changes|
  {
    |changes| == 0 ||
    (var prefix := changes[..|changes| - 1];
     var acc := Accumulate(prefix);
     var c := changes[|changes| - 1].change;
     && ContextsChain(prefix)
     && (c.Change? && acc.outputContext.Some? ==> c.inputContext == acc.outputContext.value))
  }

  /** The failed context check of a verifying `compose`. */
  datatype ComposeError = ContextMismatch

  /** `compose(changes, verify)`: verification either rejects the list or
      lets the one composed value through; it never alters that value. */
  function Compose(changes: seq<TaggedChange>, verify: bool := true): (r: Result<TestChange, ComposeError>)
    ensures r.Failure? <==> verify && !ContextsChain(changes)
    ensures r.Success? ==> r.value == ComposeValue(changes)
  {
    if verify && !ContextsChain(changes) then Failure(ContextMismatch) else Success(ComposeValue(changes))
  }

  /** Without verification `compose` always succeeds, and with it any
      success carries the same value. */
  lemma VerificationDoesNotChangeValue(changes: seq<TaggedChange>)
    ensures Compose(changes, false) == Success(ComposeValue(changes))
    ensures Compose(changes, true).Success? ==> Compose(changes, true) == Compose(changes, false)
  {
  }

  /** `invert(change)`. */
  function Invert(c: TestChange): (r: TestChange)
    ensures r.Empty? <==> c.Empty?
    ensures c.Change? ==> r.inputContext == c.outputContext && r.outputContext == c.inputContext
    ensures r.Intentions() == Inverse(c.Intentions())
  {
    match c
    case Empty => Empty
    case Change(input, intentions, output) => Change(output, Inverse(intentions), input)
  }

  /** The inverse of a valid change is valid: its intentions lead from the
      original's output context back to the original's input context. */
  lemma InvertKeepsValid(c: TestChange)
    requires Valid(c)
    ensures Valid(Invert(c))
  {
    if c.Change? {
      ComposeIntentionsPreservesReduced(c.inputContext, c.intentions);
      ComposeIntentionsThenInverse(c.inputContext, c.intentions);
    }
  }

  lemma InvertInvolutive(c: TestChange)
    ensures Invert(Invert(c)) == c
  {
    if c.Change? {
      InverseInverse(c.intentions);
    }
  }

  /** Two changes that may be rebased one over the other: when both are
      non-empty they were minted against the same context. */
  predicate Compatible(change: TestChange, over: TestChange)
  {
    change.Change? && over.Change? ==> change.inputContext == over.inputContext
  }

  /** The contract violation of rebasing over a base the change did not
      branch from. */
  datatype RebaseError = IncompatibleBase

  /** `rebase(change, over)`: the same intentions, moved to start where
      `over` ends. `emptyChange` stays empty and rebasing over `emptyChange`
      changes nothing; a non-empty base minted against another context than
      the change is rejected. */
  function Rebase(change: TestChange, over: TestChange): (r: Result<TestChange, RebaseError>)
    ensures r.Failure? <==> !Compatible(change, over)
    ensures r.Success? ==> r.value.Intentions() == change.Intentions() && (r.value.Empty? <==> change.Empty?)
    ensures r.Success? && change.Change? && over.Change? ==> r.value == Mint(over.outputContext, change.intentions)
    ensures over.Empty? ==> r == Success(change)
  {
    match change
    case Empty => Success(Empty)
    case Change(input, intentions, _) =>
      match over
      case Empty => Success(change)
      case Change(overInput, _, overOutput) =>
        if input != overInput then Failure(IncompatibleBase)
        else Success(Change(overOutput, intentions, ComposeIntentions(overOutput, intentions)))
  }

  /** Rebasing a valid change over a valid change gives a valid change that
      ends where the change's intentions lead from the base's output. */
  lemma RebaseKeepsValid(change: TestChange, over: TestChange)
    requires Valid(change) && Valid(over)
    ensures Rebase(change, over).Success? ==> Valid(Rebase(change, over).value)
  {
    if over.Change? {
      ComposeIntentionsPreservesReduced(over.inputContext, over.intentions);
    }
  }

  lemma Singleton(t: TaggedChange)
    ensures NonEmptyChanges([t]) == if t.change.Change? then [t.change] else []
    ensures AllIntentions([t]) == t.change.Intentions()
  {
    assert [t][..0] == [];
  }

  lemma NonEmptyChangesAppend(a: seq<TaggedChange>, b: seq<TaggedChange>)
    ensures NonEmptyChanges(a + b) == NonEmptyChanges(a) + NonEmptyChanges(b)
    ensures AllIntentions(a + b) == AllIntentions(a) + AllIntentions(b)
    decreases |b|
  {
    if |b| == 0 {
      assert a + b == a;
    } else {
      assert (a + b)[..|a + b| - 1] == a + b[..|b| - 1];
      NonEmptyChangesAppend(a, b[..|b| - 1]);
    }
  }

  /** The non-empty changes of a valid list are valid. */
  lemma NonEmptyChangesValid(changes: seq<TaggedChange>)
    requires AllValid(changes)
    ensures forall k :: 0 <= k < |NonEmptyChanges(changes)| ==> Valid(NonEmptyChanges(changes)[k])
    ensures InputsReduced(changes)
    decreases |changes|
  {
    if |changes| > 0 {
      NonEmptyChangesValid(changes[..|changes| - 1]);
    }
  }

  /** The first non-empty change of a list whose inputs are reduced has a
      reduced input. */
  lemma FirstInputReduced(changes: seq<TaggedChange>)
    requires InputsReduced(changes)
    requires |NonEmptyChanges(changes)| > 0
    ensures Reduced(NonEmptyChanges(changes)[0].inputContext)
    decreases |changes|
  {
    var prefix := changes[..|changes| - 1];
    if |NonEmptyChanges(prefix)| > 0 {
      FirstInputReduced(prefix);
    }
  }

  /** Composition is insensitive to nesting: composing a sub-list first and
      splicing the result back in, as an anonymous change, gives the value
      of composing the flat list. Associativity is the special case of
      three changes. */
  lemma ComposeFlatten(before: seq<TaggedChange>, inner: seq<TaggedChange>, after: seq<TaggedChange>)
    requires InputsReduced(before + inner + after)
    ensures ComposeValue(before + [MakeAnonChange(ComposeValue(inner))] + after) == ComposeValue(before + inner + after)
  {
    var x := ComposeValue(inner);
    var nested := before + [MakeAnonChange(x)] + after;
    var flat := before + inner + after;
    NonEmptyChangesAppend(before + [MakeAnonChange(x)], after);
    NonEmptyChangesAppend(before, [MakeAnonChange(x)]);
    NonEmptyChangesAppend(before + inner, after);
    NonEmptyChangesAppend(before, inner);
    assert [MakeAnonChange(x)][..0] == [];
    assert x.Intentions() == ComposeIntentions([], AllIntentions(inner));
    var a, b, c := AllIntentions(before), AllIntentions(inner), AllIntentions(after);
    assert AllIntentions(nested) == a + ComposeIntentions([], b) + c;
    assert AllIntentions(flat) == a + b + c;
    if |NonEmptyChanges(flat)| > 0 {
      FirstInputReduced(flat);
      assert NonEmptyChanges(nested)[0].inputContext == NonEmptyChanges(flat)[0].inputContext;
      ComposeIntentionsNormalisedMiddle([], a, b, c);
      ComposeIntentionsNormalisedMiddle(NonEmptyChanges(flat)[0].inputContext, a, b, c);
    }
  }

  /** compose([compose([A, B]), C]) == compose([A, B, C]). */
  lemma ComposeAssociativeLeft(a: TaggedChange, b: TaggedChange, c: TaggedChange)
    requires InputsReduced([a, b, c])
    ensures ComposeValue([MakeAnonChange(ComposeValue([a, b])), c]) == ComposeValue([a, b, c])
  {
    assert [MakeAnonChange(ComposeValue([a, b])), c] == [] + [MakeAnonChange(ComposeValue([a, b]))] + [c];
    assert [a, b, c] == [] + [a, b] + [c];
    ComposeFlatten([], [a, b], [c]);
  }

  /** compose([A, compose([B, C])]) == compose([A, B, C]). */
  lemma ComposeAssociativeRight(a: TaggedChange, b: TaggedChange, c: TaggedChange)
    requires InputsReduced([a, b, c])
    ensures ComposeValue([a, MakeAnonChange(ComposeValue([b, c]))]) == ComposeValue([a, b, c])
  {
    assert [a, MakeAnonChange(ComposeValue([b, c]))] == [a] + [MakeAnonChange(ComposeValue([b, c]))] + [];
    assert [a, b, c] == [a] + [b, c] + [];
    ComposeFlatten([a], [b, c], []);
  }

  /** `emptyChange` is an identity for composition, and composing a single
      valid change with normalised intentions gives the change back. */
  lemma ComposeIdentity(x: TaggedChange)
    ensures ComposeValue([MakeAnonChange(Empty), x]) == ComposeValue([x])
    ensures ComposeValue([x, MakeAnonChange(Empty)]) == ComposeValue([x])
    ensures Valid(x.change) && Reduced(x.change.Intentions()) ==> ComposeValue([x]) == x.change
  {
    assert [MakeAnonChange(Empty), x][..1] == [MakeAnonChange(Empty)];
    assert [x, MakeAnonChange(Empty)][..1] == [x];
    assert [x][..0] == [];
    if x.change.Change? && Reduced(x.change.intentions) {
      ComposeIntentionsOfReduced([], x.change.intentions);
      assert [] + x.change.intentions == x.change.intentions;
    }
  }

  /** Composing two non-empty changes, the first valid: the check passes
      exactly when the second starts where the first ends, and the value
      normalises both changes' intentions onto the first input context. */
  lemma ComposePair(a: TestChange, b: TestChange, verify: bool)
    requires a.Change? && b.Change? && Valid(a)
    ensures Compose([MakeAnonChange(a), MakeAnonChange(b)], verify)
         == if verify && b.inputContext != a.outputContext then Failure(ContextMismatch)
            else Success(Change(a.inputContext,
                                ComposeIntentions([], a.intentions + b.intentions),
                                ComposeIntentions(a.inputContext, a.intentions + b.intentions)))
  {
    var pair := [MakeAnonChange(a), MakeAnonChange(b)];
    assert pair[..1] == [MakeAnonChange(a)];
    assert pair == [MakeAnonChange(a)] + [MakeAnonChange(b)];
    assert pair[..1][..0] == [];
    Singleton(MakeAnonChange(a));
    Singleton(MakeAnonChange(b));
    NonEmptyChangesAppend([MakeAnonChange(a)], [MakeAnonChange(b)]);
    assert Accumulate(pair[..1]).outputContext == Some(a.outputContext);
    assert ContextsChain(pair[..1]);
    assert ContextsChain(pair) <==> b.inputContext == a.outputContext;
  }

  /** Composing a valid change with its inverse chains, cancels every
      intention and returns to the starting context. */
  lemma ComposeWithInverse(a: TestChange)
    requires Valid(a)
    ensures Compose([MakeAnonChange(a), MakeAnonChange(Invert(a))]).Success?
    ensures a.Empty? ==> ComposeValue([MakeAnonChange(a), MakeAnonChange(Invert(a))]) == Empty
    ensures a.Change? ==>
      ComposeValue([MakeAnonChange(a), MakeAnonChange(Invert(a))]) == Change(a.inputContext, [], a.inputContext)
  {
    var pair := [MakeAnonChange(a), MakeAnonChange(Invert(a))];
    assert pair[..1] == [MakeAnonChange(a)];
    assert pair == [MakeAnonChange(a)] + [MakeAnonChange(Invert(a))];
    Singleton(MakeAnonChange(a));
    Singleton(MakeAnonChange(Invert(a)));
    NonEmptyChangesAppend([MakeAnonChange(a)], [MakeAnonChange(Invert(a))]);
    assert ContextsChain(pair[..1]) by {
      assert pair[..1][..0] == [];
    }
    if a.Change? {
      assert Accumulate(pair[..1]).outputContext == Some(a.outputContext);
      assert AllIntentions(pair) == a.intentions + Inverse(a.intentions);
      ComposeIntentionsAppend([], a.intentions, Inverse(a.intentions));
      ComposeIntentionsThenInverse([], a.intentions);
      ComposeIntentionsAppend(a.inputContext, a.intentions, Inverse(a.intentions));
      ComposeIntentionsThenInverse(a.inputContext, a.intentions);
    }
  }

  /** Normalisation: composing a change, its inverse, and then a further
      non-empty change that starts where the first did, is composing the
      further change alone. */
  lemma NormalisationLaw(a: TestChange, x: TestChange)
    requires x.Change?
    requires a.Change? ==> Reduced(a.inputContext) && x.inputContext == a.inputContext
    ensures ComposeValue([MakeAnonChange(a), MakeAnonChange(Invert(a)), MakeAnonChange(x)])
         == ComposeValue([MakeAnonChange(x)])
  {
    var triple := [MakeAnonChange(a), MakeAnonChange(Invert(a)), MakeAnonChange(x)];
    assert triple == [MakeAnonChange(a)] + [MakeAnonChange(Invert(a))] + [MakeAnonChange(x)];
    Singleton(MakeAnonChange(a));
    Singleton(MakeAnonChange(Invert(a)));
    Singleton(MakeAnonChange(x));
    NonEmptyChangesAppend([MakeAnonChange(a)] + [MakeAnonChange(Invert(a))], [MakeAnonChange(x)]);
    NonEmptyChangesAppend([MakeAnonChange(a)], [MakeAnonChange(Invert(a))]);
    var ai := a.Intentions();
    assert AllIntentions(triple) == ai + Inverse(ai) + x.intentions;
    ComposeIntentionsAppend([], ai + Inverse(ai), x.intentions);
    ComposeIntentionsAppend([], ai, Inverse(ai));
    ComposeIntentionsThenInverse([], ai);
    assert [] + x.intentions == x.intentions;
    if a.Change? {
      ComposeIntentionsAppend(a.inputContext, ai + Inverse(ai), x.intentions);
      ComposeIntentionsAppend(a.inputContext, ai, Inverse(ai));
      ComposeIntentionsThenInverse(a.inputContext, ai);
    }
  }

  /** On a valid list whose contexts chain, the composition ends where the
      last non-empty change ends. */
  lemma ComposeEndsAtLastOutput(changes: seq<TaggedChange>)
    requires AllValid(changes)
    requires ContextsChain(changes)
    requires |NonEmptyChanges(changes)| > 0
    ensures Accumulate(changes).outputContext == Some(NonEmptyChanges(changes)[|NonEmptyChanges(changes)| - 1].outputContext)
    decreases |changes|
  {
    var prefix := changes[..|changes| - 1];
    assert AllValid(prefix);
    if changes[|changes| - 1].change.Empty? {
      ComposeEndsAtLastOutput(prefix);
    }
  }

  /** Consecutive non-empty changes meet: each starts where the previous ends. */
  predicate Adjacent(changes: seq<TestChange>)
    requires forall k :: 0 <= k < |changes| ==> changes[k].Change?
  {
    forall k :: 0 < k < |changes| ==> changes[k].inputContext == changes[k - 1].outputContext
  }

  lemma AdjacentSnoc(ne: seq<TestChange>, c: TestChange)
    requires forall k :: 0 <= k < |ne| ==> ne[k].Change?
    requires c.Change?
    ensures Adjacent(ne + [c]) <==> Adjacent(ne) && (|ne| > 0 ==> c.inputContext == ne[|ne| - 1].outputContext)
  {
    var s := ne + [c];
    if Adjacent(s) {
      forall k | 0 < k < |ne|
        ensures ne[k].inputContext == ne[k - 1].outputContext
      {
        assert s[k] == ne[k] && s[k - 1] == ne[k - 1];
      }
      if |ne| > 0 {
        assert s[|ne|] == c && s[|ne| - 1] == ne[|ne| - 1];
      }
    }
    if Adjacent(ne) && (|ne| > 0 ==> c.inputContext == ne[|ne| - 1].outputContext) {
      forall k | 0 < k < |s|
        ensures s[k].inputContext == s[k - 1].outputContext
      {
        if k < |ne| {
          assert s[k] == ne[k] && s[k - 1] == ne[k - 1];
        } else {
          assert s[k] == c && s[k - 1] == ne[|ne| - 1];
        }
      }
    }
  }

  /** For valid changes, the check a verifying `compose` makes is exactly
      that the non-empty changes are adjacent. */
  lemma {:induction false} ContextsChainIffAdjacent(changes: seq<TaggedChange>)
    requires AllValid(changes)
    ensures ContextsChain(changes) <==> Adjacent(NonEmptyChanges(changes))
    decreases |changes|
  {
    if |changes| > 0 {
      var prefix := changes[..|changes| - 1];
      assert AllValid(prefix);
      ContextsChainIffAdjacent(prefix);
      var ne' := NonEmptyChanges(prefix);
      if ContextsChain(prefix) && |ne'| > 0 {
        ComposeEndsAtLastOutput(prefix);
      }
      var c := changes[|changes| - 1].change;
      if c.Change? {
        assert NonEmptyChanges(changes) == ne' + [c];
        AdjacentSnoc(ne', c);
      } else {
        assert NonEmptyChanges(changes) == ne' + [] == ne';
      }
    }
  }
}

=== FILE: test_change_codec.dfy ===
/** The codec of the test change family. A change travels as a JSON object:
    `emptyChange` as `{intentions: []}`, any other change with its three
    number arrays. A change is recognised as non-empty by the presence of
    `inputContext`. The encoding context names the originating session; the
    test family has no session-relative identifiers, so neither direction
    depends on it. */
module TestChangeCodec {
  import opened Wrappers
  import opened TestChanges

  datatype Json =
    | JNumber(n: int)
    | JArray(items: seq<Json>)
    | JObject(members: seq<JMember>)

  datatype JMember = JMember(key: string, value: Json)

  datatype EncodingContext = EncodingContext(originatorId: string)

  datatype DecodeError =
    | NotAnObject
    | MissingField(name: string)
    | NotANumberArray(name: string)
    | EmptyChangeWithIntentions

  const InputContextKey: string := "inputContext"
  const IntentionsKey: string := "intentions"
  const OutputContextKey: string := "outputContext"

  function EncodeNumbers(xs: seq<int>): (j: Json)
    ensures j.JArray? && |j.items| == |xs|
  {
    JArray(seq(|xs|, i requires 0 <= i < |xs| => JNumber(xs[i])))
  }

  function DecodeNumbers(j: Json): Option<seq<int>>
  {
    if j.JArray? && forall i :: 0 <= i < |j.items| ==> j.items[i].JNumber? then
      Some(seq(|j.items|, i requires 0 <= i < |j.items| => j.items[i].n))
    else None
  }

  /** The value of the first member named `key`. */
  function Lookup(members: seq<JMember>, key: string): (r: Option<Json>)
    ensures r.Some? <==> exists i :: 0 <= i < |members| && members[i].key == key
  {
    if |members| == 0 then None
    else if members[0].key == key then Some(members[0].value)
    else
      var r := Lookup(members[1..], key);
      assert forall i :: 1 <= i < |members| ==> members[i] == members[1..][i - 1];
      r
  }

  /** Reads the number array held under `key`. */
  function Field(members: seq<JMember>, key: string): Result<seq<int>, DecodeError>
  {
    match Lookup(members, key)
    case None => Failure(MissingField(key))
    case Some(j) =>
      match DecodeNumbers(j)
      case None => Failure(NotANumberArray(key))
      case Some(xs) => Success(xs)
  }

  /** An encoded change is an object that carries `inputContext` exactly
      when the change is non-empty, and always carries its intentions; a
      non-empty change also carries its output context. */
  function Encode(c: TestChange, context: EncodingContext): (j: Json)
    ensures j.JObject?
    ensures Lookup(j.members, InputContextKey).Some? <==> c.Change?
    ensures Lookup(j.members, IntentionsKey) == Some(EncodeNumbers(c.Intentions()))
    ensures c.Change? ==> Lookup(j.members, InputContextKey) == Some(EncodeNumbers(c.inputContext))
    ensures c.Change? ==> Lookup(j.members, OutputContextKey) == Some(EncodeNumbers(c.outputContext))
  {
    match c
    case Empty => JObject([JMember(IntentionsKey, JArray([]))])
    case Change(input, intentions, output) =>
      var members := [
        JMember(InputContextKey, EncodeNumbers(input)),
        JMember(IntentionsKey, EncodeNumbers(intentions)),
        JMember(OutputContextKey, EncodeNumbers(output))];
      assert members[1..][1..] == [JMember(OutputContextKey, EncodeNumbers(output))];
      assert Lookup(members[1..][1..], OutputContextKey) == Some(EncodeNumbers(output));
      JObject(members)
  }

  /** Decoding fails on anything that is not an encoded change: a value
      that is not an object, an object without intentions, or a field that
      is not a number array. A success is a non-empty change exactly when
      `inputContext` is present, and it reads each field back as it is. */
  function Decode(j: Json, context: EncodingContext): (r: Result<TestChange, DecodeError>)
    ensures !j.JObject? ==> r == Failure(NotAnObject)
    ensures j.JObject? && Lookup(j.members, IntentionsKey).None? ==> r.Failure?
    ensures r.Success? ==> (r.value.Change? <==> Lookup(j.members, InputContextKey).Some?)
    ensures r.Success? ==> Field(j.members, IntentionsKey) == Success(r.value.Intentions())
    ensures r.Success? && r.value.Change? ==>
      && Field(j.members, InputContextKey) == Success(r.value.inputContext)
      && Field(j.members, OutputContextKey) == Success(r.value.outputContext)
  {
    if !j.JObject? then Failure(NotAnObject)
    else if Lookup(j.members, InputContextKey).Some? then
      match Field(j.members, InputContextKey)
      case Failure(e) => Failure(e)
      case Success(input) =>
        match Field(j.members, IntentionsKey)
        case Failure(e) => Failure(e)
        case Success(intentions) =>
          match Field(j.members, OutputContextKey)
          case Failure(e) => Failure(e)
          case Success(output) => Success(Change(input, intentions, output))
    else
      match Field(j.members, IntentionsKey)
      case Failure(e) => Failure(e)
      case Success(intentions) =>
        if |intentions| == 0 then Success(Empty) else Failure(EmptyChangeWithIntentions)
  }

  lemma NumbersRoundTrip(xs: seq<int>)
    ensures DecodeNumbers(EncodeNumbers(xs)) == Some(xs)
  {
    var j := EncodeNumbers(xs);
    assert forall i :: 0 <= i < |j.items| ==> j.items[i] == JNumber(xs[i]);
    assert forall i :: 0 <= i < |j.items| ==> j.items[i].JNumber?;
    var decoded := seq(|j.items|, i requires 0 <= i < |j.items| => j.items[i].n);
    assert DecodeNumbers(j) == Some(decoded);
    assert forall i :: 0 <= i < |xs| ==> decoded[i] == xs[i];
    assert decoded == xs;
  }

  /** decode(encode(c, context), context) == c, for every change including
      `emptyChange`; decoding under another context gives the same change. */
  lemma CodecRoundTrip(c: TestChange, context: EncodingContext, decodeContext: EncodingContext)
    ensures Decode(Encode(c, context), decodeContext) == Success(c)
  {
    match c
    case Empty =>
      NumbersRoundTrip([]);
    case Change(input, intentions, output) =>
      NumbersRoundTrip(input);
      NumbersRoundTrip(intentions);
      NumbersRoundTrip(output);
  }
}

=== FILE: test_change_delta.dfy ===
/** Projection of a test change onto a delta: the structural description of
    the mutation a view applies.

    A change with intentions sets field `foo` to one node of type `test`
    whose value is the decimal intentions joined with `|`; the node's build
    and detach identities carry the change's revision. A change without
    intentions projects to the empty delta. */
module TestChangeDelta {
  import opened Wrappers
  import opened IntentionAlgebra
  import opened TestChanges

  /** Correlates content across deltas: the revision that built or detached
      it and a number unique within that revision. */
  datatype ChangeAtomId = ChangeAtomId(major: Option<RevisionTag>, minor: nat)

  datatype TestNode = TestNode(nodeType: string, value: string)

  /** A field entry replacing the field's content by `node`. */
  datatype FieldDelta = SetNode(node: TestNode, buildId: ChangeAtomId, detachId: ChangeAtomId)

  type FieldMap = map<string, FieldDelta>

  const FooField: string := "foo"
  const TestNodeType: string := "test"
  const BuildMinor: nat := 424243
  const DetachMinor: nat := 424242
  const Separator: char := '|'

  predicate IsDigit(c: char)
  {
    '0' <= c <= '9'
  }

  predicate AllDigits(s: string)
  {
    forall i :: 0 <= i < |s| ==> IsDigit(s[i])
  }

  function DigitChar(d: nat): char
    requires d < 10
  {
    ('0' as int + d) as char
  }

  function DigitValue(c: char): nat
    requires IsDigit(c)
  {
    c as int - '0' as int
  }

  /** The decimal digits of `n`, most significant first, without leading zeros. */
  function NatToString(n: nat): (r: string)
    ensures |r| > 0 && AllDigits(r)
    ensures |r| > 1 ==> r[0] != '0'
    decreases n
  {
    if n < 10 then [DigitChar(n)] else NatToString(n / 10) + [DigitChar(n % 10)]
  }

  /** `String(i)` for an integer: a minus sign for negatives, then the digits. */
  function IntToString(i: int): string
  {
    if i < 0 then "-" + NatToString(-i) else NatToString(i)
  }

  /** `parts.join(sep)`. */
  function Join(parts: seq<string>, sep: char): string
  {
    if |parts| == 0 then ""
    else if |parts| == 1 then parts[0]
    else parts[0] + [sep] + Join(parts[1..], sep)
  }

  /** `intentions.map(String).join("|")`, the value of the projected node. */
  function JoinIntentions(intentions: seq<int>): string
  {
    Join(seq(|intentions|, i requires 0 <= i < |intentions| => IntToString(intentions[i])), Separator)
  }

  /** `toDelta(taggedChange)`. */
  function ToDelta(tc: TaggedChange): (r: FieldMap)
    ensures |tc.change.Intentions()| == 0 <==> r == map[]
    ensures |tc.change.Intentions()| > 0 ==>
      && r.Keys == {FooField}
      && r[FooField].node.nodeType == TestNodeType
      && r[FooField].buildId == ChangeAtomId(tc.revision, BuildMinor)
      && r[FooField].detachId == ChangeAtomId(tc.revision, DetachMinor)
  {
    if |tc.change.Intentions()| > 0 then
      var entry := SetNode(
        TestNode(TestNodeType, JoinIntentions(tc.change.Intentions())),
        ChangeAtomId(tc.revision, BuildMinor),
        ChangeAtomId(tc.revision, DetachMinor));
      assert FooField in map[FooField := entry];
      map[FooField := entry]
    else
      map[]
  }

  // Reading a projected value back.

  function ParseNat(s: string): nat
    requires AllDigits(s)
    decreases |s|
  {
    if |s| == 0 then 0 else ParseNat(s[..|s| - 1]) * 10 + DigitValue(s[|s| - 1])
  }

  function ParseInt(s: string): Option<int>
  {
    if |s| > 1 && s[0] == '-' && AllDigits(s[1..]) then Some(0 - ParseNat(s[1..]) as int)
    else if |s| > 0 && AllDigits(s) then Some(ParseNat(s))
    else None
  }

  /** The position of the first `c` in `s`. */
  function IndexOf(s: string, c: char): (k: nat)
    requires c in s
    ensures k < |s| && s[k] == c && c !in s[..k]
  {
    if s[0] == c then 0
    else
      assert c in s[1..] by {
        var j :| 0 <= j < |s| && s[j] == c;
        assert s[1..][j - 1] == c;
      }
      var k := 1 + IndexOf(s[1..], c);
      assert s[..k] == [s[0]] + s[1..][..k - 1];
      k
  }

  /** `s.split(sep)`. */
  function Split(s: string, sep: char): seq<string>
    decreases |s|
  {
    if sep !in s then [s]
    else
      var k := IndexOf(s, sep);
      [s[..k]] + Split(s[k + 1..], sep)
  }

  function ParseAll(parts: seq<string>): Option<seq<int>>
  {
    if |parts| == 0 then Some([])
    else
      match ParseInt(parts[0])
      case None => None
      case Some(x) =>
        match ParseAll(parts[1..])
        case None => None
        case Some(rest) => Some([x] + rest)
  }

  /** Reads the intentions back from a projected node's value. */
  function ParseIntentions(value: string): Option<seq<int>>
  {
    ParseAll(Split(value, Separator))
  }

  lemma {:induction false} NatToStringRoundTrip(n: nat)
    ensures ParseNat(NatToString(n)) == n
    decreases n
  {
    if n >= 10 {
      NatToStringRoundTrip(n / 10);
      var s := NatToString(n);
      assert s[..|s| - 1] == NatToString(n / 10);
    }
  }

  lemma IntToStringRoundTrip(i: int)
    ensures ParseInt(IntToString(i)) == Some(i)
    ensures Separator !in IntToString(i)
  {
    var s := IntToString(i);
    if i < 0 {
      NatToStringRoundTrip(-i);
      assert s[1..] == NatToString(-i);
    } else {
      NatToStringRoundTrip(i);
    }
  }

  lemma {:induction false} SplitJoin(parts: seq<string>, sep: char)
    requires |parts| > 0
    requires forall k :: 0 <= k < |parts| ==> sep !in parts[k]
    ensures Split(Join(parts, sep), sep) == parts
    decreases |parts|
  {
    if |parts| > 1 {
      var head, rest := parts[0], Join(parts[1..], sep);
      var s := head + [sep] + rest;
      assert s[|head|] == sep;
      var k := IndexOf(s, sep);
      assert k == |head|;
      assert s[..k] == head;
      assert s[k + 1..] == rest;
      SplitJoin(parts[1..], sep);
    }
  }

  lemma {:induction false} ParseAllStrings(xs: seq<int>)
    ensures ParseAll(seq(|xs|, i requires 0 <= i < |xs| => IntToString(xs[i]))) == Some(xs)
    decreases |xs|
  {
    var parts := seq(|xs|, i requires 0 <= i < |xs| => IntToString(xs[i]));
    if |xs| > 0 {
      IntToStringRoundTrip(xs[0]);
      assert parts[1..] == seq(|xs[1..]|, i requires 0 <= i < |xs[1..]| => IntToString(xs[1..][i]));
      ParseAllStrings(xs[1..]);
      assert [xs[0]] + xs[1..] == xs;
    }
  }

  /** The projected value determines the intentions: reading it back gives
      exactly the change's intentions, in order. */
  lemma ToDeltaValueRoundTrip(tc: TaggedChange)
    requires |tc.change.Intentions()| > 0
    ensures ParseIntentions(ToDelta(tc)[FooField].node.value) == Some(tc.change.Intentions())
  {
    var xs := tc.change.Intentions();
    var parts := seq(|xs|, i requires 0 <= i < |xs| => IntToString(xs[i]));
    forall k | 0 <= k < |parts|
      ensures Separator !in parts[k]
    {
      IntToStringRoundTrip(xs[k]);
    }
    SplitJoin(parts, Separator);
    ParseAllStrings(xs);
  }

  /** Two changes with intentions project to the same delta under the same
      revision exactly when their intentions agree. */
  lemma ToDeltaDistinguishesIntentions(a: TestChange, b: TestChange, revision: Option<RevisionTag>)
    ensures ToDelta(TaggedChange(a, revision)) == ToDelta(TaggedChange(b, revision)) <==> a.Intentions() == b.Intentions()
  {
    var da, db := ToDelta(TaggedChange(a, revision)), ToDelta(TaggedChange(b, revision));
    if da == db && |a.Intentions()| > 0 {
      ToDeltaValueRoundTrip(TaggedChange(a, revision));
      ToDeltaValueRoundTrip(TaggedChange(b, revision));
    }
  }

  /** A change composed with its inverse projects to the empty delta. */
  lemma ComposeWithInverseProjectsToNothing(a: TestChange, revision: Option<RevisionTag>)
    requires Valid(a)
    ensures ToDelta(TaggedChange(ComposeValue([MakeAnonChange(a), MakeAnonChange(Invert(a))]), revision)) == map[]
  {
    ComposeWithInverse(a);
  }

  /** Normalisation, up to projection, for every further change including
      `emptyChange`: the composition of a change, its inverse and `x`
      projects to the same delta as `x` composed alone. */
  lemma NormalisationUpToDelta(a: TestChange, x: TestChange, revision: Option<RevisionTag>)
    requires a.Change? && x.Change? ==> x.inputContext == a.inputContext
    requires a.Change? ==> Reduced(a.inputContext)
    ensures ToDelta(TaggedChange(ComposeValue([MakeAnonChange(a), MakeAnonChange(Invert(a)), MakeAnonChange(x)]), revision))
         == ToDelta(TaggedChange(ComposeValue([MakeAnonChange(x)]), revision))
  {
    if x.Change? {
      NormalisationLaw(a, x);
    } else {
      var triple := [MakeAnonChange(a), MakeAnonChange(Invert(a)), MakeAnonChange(x)];
      assert triple == [MakeAnonChange(a)] + [MakeAnonChange(Invert(a))] + [MakeAnonChange(x)];
      Singleton(MakeAnonChange(a));
      Singleton(MakeAnonChange(Invert(a)));
      Singleton(MakeAnonChange(x));
      NonEmptyChangesAppend([MakeAnonChange(a)] + [MakeAnonChange(Invert(a))], [MakeAnonChange(x)]);
      NonEmptyChangesAppend([MakeAnonChange(a)], [MakeAnonChange(Invert(a))]);
      var ai := a.Intentions();
      assert AllIntentions(triple) == ai + Inverse(ai);
      ComposeIntentionsThenInverse([], ai);
      ComposeIntentionsAppend([], ai, Inverse(ai));
    }
  }

  /** The exact normalisation law does not extend to `emptyChange`: what is
      left of a non-empty change composed with its inverse still carries the
      change's context, so it differs from `emptyChange` while projecting to
      the same (empty) delta. */
  lemma NormalisationKeepsContextBeforeEmpty(a: TestChange)
    requires a.Change? && Valid(a)
    ensures ComposeValue([MakeAnonChange(a), MakeAnonChange(Invert(a)), MakeAnonChange(Empty)])
         == Change(a.inputContext, [], a.inputContext)
    ensures ComposeValue([MakeAnonChange(Empty)]) == Empty
  {
    var pair := [MakeAnonChange(a), MakeAnonChange(Invert(a))];
    ComposeWithInverse(a);
    ComposeIdentity(MakeAnonChange(ComposeValue(pair)));
    assert [MakeAnonChange(a), MakeAnonChange(Invert(a)), MakeAnonChange(Empty)] == pair + [MakeAnonChange(Empty)];
    NonEmptyChangesAppend(pair, [MakeAnonChange(Empty)]);
    Singleton(MakeAnonChange(Empty));
  }
}

=== FILE: test_change_examples.dfy ===
/** The concrete behaviour of the test change family: each lemma fixes the
    outcome of one operation on one small input. */
module TestChangeExamples {
  import opened Wrappers
  import opened IntentionAlgebra
  import opened TestChanges
  import opened TestChangeDelta
  import opened TestChangeCodec

  /** Two adjacent changes compose into one change holding both intentions,
      minted against the first change's input context. */
  lemma CanBeComposed()
    ensures Compose([MakeAnonChange(MintOne([0, 1], 2)), MakeAnonChange(MintOne([0, 1, 2], 3))])
         == Success(Mint([0, 1], [2, 3]))
  {
    assert [0, 1] + [2] == [0, 1, 2] && [2] + [3] == [2, 3] && [] + [2, 3] == [2, 3];
    ComposeIntentionsOfReduced([0, 1], [2]);
    ComposePair(MintOne([0, 1], 2), MintOne([0, 1, 2], 3), true);
    ComposeIntentionsOfReduced([], [2, 3]);
  }

  /** With verification off, two changes that do not meet still compose:
      the intentions are concatenated onto the first change's input context.
      With verification on, the same pair is rejected. */
  lemma CanBeComposedWithoutVerification()
    ensures Compose([MakeAnonChange(MintOne([0], 1)), MakeAnonChange(MintOne([2], 3))], false)
         == Success(Mint([0], [1, 3]))
    ensures Compose([MakeAnonChange(MintOne([0], 1)), MakeAnonChange(MintOne([2], 3))], true).Failure?
  {
    assert [0] + [1] == [0, 1] && [1] + [3] == [1, 3] && [] + [1, 3] == [1, 3];
    ComposeIntentionsOfReduced([0], [1]);
    ComposePair(MintOne([0], 1), MintOne([2], 3), false);
    ComposePair(MintOne([0], 1), MintOne([2], 3), true);
    ComposeIntentionsOfReduced([], [1, 3]);
  }

  /** Intentions followed by their negations cancel in the composition. */
  lemma CompositionOfInversesNormalises()
    ensures Compose([MakeAnonChange(Mint([0], [1, 2])), MakeAnonChange(Mint([0, 1, 2], [-2, -1, 3]))])
         == Success(Mint([0], [3]))
  {
    var all := [1, 2] + [-2, -1, 3];
    assert all == [1, 2, -2, -1, 3];
    assert [0] + [1, 2] == [0, 1, 2] && [0] + [3] == [0, 3] && [] + [3] == [3];
    ComposeIntentionsOfReduced([0], [1, 2]);
    ComposePair(Mint([0], [1, 2]), Mint([0, 1, 2], [-2, -1, 3]), true);
    NormaliseExample([], all);
    NormaliseExample([0], all);
  }

  /** The intentions of the normalisation example, composed onto a context
      that is empty or ends in 0, leave only the final 3. */
  lemma NormaliseExample(base: seq<int>, all: seq<int>)
    requires |base| == 0 || base[|base| - 1] == 0
    requires all == [1, 2, -2, -1, 3]
    ensures ComposeIntentions(base, all) == base + [3]
  {
    var i1, i2, i3, i4 := [1], [1, 2], [1, 2, -2], [1, 2, -2, -1];
    assert [] + [1] == i1 && i1 + [2] == i2 && i2 + [-2] == i3 && i3 + [-1] == i4 && i4 + [3] == all;
    var c1 := base + [1];
    var c2 := c1 + [2];
    ComposeIntentionsSnoc(base, [], 1);
    assert ComposeIntentions(base, i1) == c1;
    ComposeIntentionsSnoc(base, i1, 2);
    assert ComposeIntentions(base, i2) == c2;
    ComposeIntentionsSnoc(base, i2, -2);
    assert c2[..|c2| - 1] == c1;
    assert ComposeIntentions(base, i3) == c1;
    ComposeIntentionsSnoc(base, i3, -1);
    assert c1[..|c1| - 1] == base;
    assert ComposeIntentions(base, i4) == base;
    ComposeIntentionsSnoc(base, i4, 3);
  }

  /** The inverse negates the intention and starts where the change ended. */
  lemma CanBeInverted()
    ensures Invert(MintOne([0, 1], 2)) == MintOne([0, 1, 2], -2)
  {
    assert [2][..0] == [] && [-2][..0] == [];
    assert ComposeIntentions([0, 1], [2]) == [0, 1, 2];
    assert ComposeIntentions([0, 1, 2], [-2]) == [0, 1];
  }

  /** Rebasing keeps the intention and moves it after the base's intention. */
  lemma CanBeRebased()
    ensures Rebase(MintOne([0], 2), MintOne([0], 1)) == Success(MintOne([0, 1], 2))
  {
    assert [1][..0] == [] && [2][..0] == [];
    assert ComposeIntentions([0], [1]) == [0, 1];
  }

  /** A tagged change projects to one `foo` entry valued "2|3", built and
      detached under its revision; an anonymous change without intentions
      projects to nothing. */
  lemma CanBeRepresentedAsDelta(tag: RevisionTag)
    ensures ToDelta(TagChange(Mint([0, 1], [2, 3]), tag))
         == map[FooField := SetNode(TestNode(TestNodeType, "2|3"),
                                    ChangeAtomId(Some(tag), BuildMinor),
                                    ChangeAtomId(Some(tag), DetachMinor))]
    ensures ToDelta(MakeAnonChange(Mint([0, 1], []))) == map[]
  {
    assert IntToString(2) == "2" && IntToString(3) == "3";
    var parts := seq(2, i requires 0 <= i < 2 => IntToString([2, 3][i]));
    assert parts == ["2", "3"];
    assert Join(parts, Separator) == "2|3";
  }

  /** Both `emptyChange` and a normal change survive encoding and decoding. */
  lemma CanBeEncodedInJson()
    ensures Decode(Encode(Empty, EncodingContext("session1")), EncodingContext("session1")) == Success(Empty)
    ensures Decode(Encode(Mint([0, 1], [2, 3]), EncodingContext("session1")), EncodingContext("session1"))
         == Success(Mint([0, 1], [2, 3]))
  {
    CodecRoundTrip(Empty, EncodingContext("session1"), EncodingContext("session1"));
    CodecRoundTrip(Mint([0, 1], [2, 3]), EncodingContext("session1"), EncodingContext("session1"));
  }
}

=== FILE: wrappers.dfy ===
/** Option and Result: explicit absence and explicit failure, in place of
    `undefined` results and thrown errors. */
module Wrappers {

  datatype Option<+T> = None | Some(value: T) {

    /** Reads absence as `default`, as a `??` fallback does. */
    function GetOr(default: T): T {
      match this
      case Some(v) => v
      case None => default
    }
  }

  datatype Result<+R, +E> = Success(value: R) | Failure(error: E)
}
